=== FILE: README.md ===
# VidyaVichar lecture Q&A — a Dafny model

VidyaVichar is a classroom question board. Students ask questions during a live lecture. The
course's instructor moderates them. Everyone in the lecture's room sees the changes as they
happen. This project models the board's core in Dafny. It has three parts.

- **The server.** This covers:
  - the socket.io lecture-room handlers of `src/socket.js`: the handshake, join and leave, ask,
    the four moderation events, clear, and disconnecting;
  - the REST controllers for questions, lectures, courses and accounts;
  - the two request guards of `src/utils/auth.js`;
  - the User and Question schemas, with their defaults, validators and enumerations.
- **The client.** This covers:
  - the lecture page's question reducer and its merge-update;
  - the socket listeners and the filters;
  - the teacher and student controls;
  - the whiteboard and question-form submit checks;
  - the login form, the session context and the route guard;
  - the role-based lecture list;
  - how the lecture id is read off the address bar.
- **Shared primitives.** `trim`, `toLowerCase`, `includes`, `split`/`join`, `filter`, `find`,
  `indexOf`, and the UTF-16 `length` of a string.

## How the model is built

- **Handlers are pure functions.** The state is an immutable `Store` (users, courses, lectures
  and questions) or a lecture-room `Server` (the store, the socket.io rooms and the identity of
  each admitted connection). Each handler maps the state and the request to:
  - a `Response` and a new store (REST), or
  - a `Step`: a new server plus the list of emitted events, each with its audience (socket).
- **Ids, clocks and dialogs are parameters.** New document ids, `Date.now()` and the answers to
  `window.confirm` are passed in. Freshness is stated as a precondition where the database
  guarantees it.
- **Hashing and tokens are abstract.** The bcrypt hash is a function `string -> string`. The
  JSON Web Token codec is a `Signer` and a `Verifier`.
- **How handlers fail.** There are four cases:
  - a `res.status(..).json({message})` refusal is `Refuse(code, message)`;
  - a handler's catch block is `Refuse(500, "server error")`;
  - a synchronous throw that Express answers with its default 500 is `Crash`;
  - a rejected promise in an async handler without a catch is `NoReply`. This assumes Express 4,
    which leaves such a request unanswered; see "Left out" for other versions.
- **Socket handler failures.** A socket handler whose catch swallows an exception is `Silent`:
  nothing changes and nothing is sent.

The model follows the code wherever it departs from the project's own description:

- **Lecture window.** A lecture is "ongoing" unless a present bound excludes the current time.
  A missing bound is `new Date(undefined)`, the invalid date, and comparisons with it are false,
  so it excludes nothing. A lecture with neither bound is therefore always ongoing, while one with
  only an end time is over once that time has passed. A bound stored as `null` is `new Date(null)`,
  the epoch, and the model writes it as time 0. The window is inclusive at both ends.
- **Socket join and ask on an unknown lecture.** These read `lecture.startTime` before the null
  check. The step is therefore silent; no "Lecture not ongoing" is sent.
- **REST join on an unknown lecture.** This ends in the catch's 500.
- **Moderation is the instructor's.** Only the course's instructor may moderate in the socket
  handlers; TAs may not.
- **Who joins and who asks.** The instructor may join a room but only enrolled students may ask.
  The REST join admits enrolled students only.
- **Disconnecting.** A disconnect leaves the lecture rooms without broadcasting a new count.
- **REST post on a closed lecture.** The "not ongoing" refusal formats both bounds with
  `toISOString`. That call throws on a missing bound, so the refusal becomes the catch's 500.
- **`checkAuth` with a token.** It calls a `verifyJwt` it never imports, so any request carrying
  a token gets Express's default 500.
- **Unauthenticated course routes.** `createCourse` and `enrollUser` are mounted without
  `requireAuth` (`src/routes/courses.js`), so they take no caller.
- **Invalid REST status.** An invalid status in the REST `updateQuestion` rejects on save. The
  handler has no catch, so under the Express 4 assumption the request is never answered.
- **The lecture page's socket.** The page takes the whole socket context value,
  `{socket, isConnected}`, as its socket. That object is always truthy and has no `emit` or `on`.
  So the update handler merges and then throws, and sends nothing. The socket listeners are never
  installed. See "Findings".
- **The teacher's "Clear All".** The page renders the teacher controls without an
  `onQuestionAction` prop, so a confirmed "Clear All" there throws and keeps the list. The
  whiteboard's trash button does reach the page's reducer, which asks a second time. Both are
  teacher-only controls, which the routed app never shows (see "Client roles"). See "Findings".
- **Whiteboard duplicates.** The duplicate check compares against the list the page passes in.
  That list is already filtered, so a hidden duplicate is accepted.
- **Client roles.** The app routes "/" to the sign-in page (`LoginPage.jsx`). It calls `login` with
  the email and password and no role, so every session is a `student`. The login form
  (`LoginForm.jsx`) would produce `teacher`, `ta` or `student`, but no page imports it. Its
  `useAuth` comes from `hooks/useAuth`, which is not part of this model; the model takes it to be
  the session's `login`. The lecture-list hook (`useLecture.js`) imports the same `useAuth`, and
  the model likewise takes it to be the session's. Either way, the app's guard admits only `instructor`, `student` and `ta`.
  The lecture page shows the teacher controls, and the whiteboard its trash button, only to a
  `teacher`. So in the app as routed, neither is ever on screen, and the two "Findings" rows
  describe code that no signed-in user can reach.

## Model

| member | source | states |
|---|---|---|
| Records.IsOngoing | src/socket.js:26-29 | The lecture is ongoing exactly when the start is absent or at most now, and the end is absent or at least now. With both bounds set this is start ≤ now ≤ end; with neither it always holds. |
| Records.ParseRole | src/models/User.js:8 | Only the four enumerated role names validate. Each maps back to its own name, and each name is accepted. |
| Records.ParseStatus | src/models/Question.js:16 | Only "open" and "answered" validate, and each round-trips through its name. |
| Records.CreateQuestion | src/models/Question.js:3-17 | A question is created exactly when lecture, asker and content are non-empty strings. It then carries the given fields, with status open and not important. |
| Records.SetPassword | src/models/User.js:12-14 | After setting a password, that same password validates; no other field changes. |
| Records.CreateUser | src/models/User.js:4-10 | A user is created exactly when name, email and hash are non-empty and the role is absent or enumerated. The email is stored lower-cased, the password validates, and the role defaults to student. |
| Records.FindUserByEmail | src/controllers/authController.js:8 | Finds a user whose stored email equals the lower-cased query, and finds none exactly when no user has it. |
| Records.FindQuestion | src/controllers/questionController.js:85 | Finds a stored question with that id, and finds none exactly when no question has it. |
| Records.Populate | src/controllers/questionController.js:63 | The rendered question is unchanged. Its author is the first user with the asker's id, shown with that user's id and name, or null exactly when no such user exists. |
| Records.PopulateAllKeepsQuestions | src/controllers/questionController.js:78 | Populating a list of questions changes no document: the views are of exactly those questions, in the same order. |
| Records.LectureQuestions | src/controllers/questionController.js:77 | Exactly the stored questions of that lecture, in stored order. |
| Records.SaveQuestion | src/socket.js:107 | Replaces the document with the saved one's id; every other document is kept in place. |
| Records.DeleteQuestion | src/socket.js:181 | Exactly the questions with another id remain, in order. |
| Records.DeleteLectureQuestions | src/socket.js:198 | Exactly the questions of other lectures remain, in order. |
| Records.SaveKeepsIdsDistinct | src/socket.js:107 | Saving keeps question ids unique. |
| Records.SubsequenceKeepsIdsDistinct | src/socket.js:181 | Any deletion (a subsequence) keeps question ids unique. |
| Auth.VerifyJwt | src/utils/auth.js:11-17 | Returns claims exactly when a non-empty token is accepted by the codec, and exactly those claims. |
| Auth.RequireAuth | src/utils/auth.js:19-26 | A missing token gives 401 "Missing token" and a rejected one 401 "Invalid token". Otherwise the request goes on with the verified claims as the user. |
| Auth.RequireRole | src/utils/auth.js:28-35 | No user gives 401. Otherwise the request passes iff the role is allowed, else 403 "Forbidden"; the default empty list admits nobody. |
| LectureRooms.AddMember | src/socket.js:38 | Joining adds the connection to that room only. |
| LectureRooms.RemoveMember | src/socket.js:55 | Leaving removes the connection from that room only; leaving a room one is not in changes nothing. |
| LectureRooms.HandshakeToken | src/socket.js:12 | The auth token is used when non-empty; otherwise the query token is. |
| LectureRooms.Connect | src/socket.js:11-19 | A connection is admitted iff its token verifies and then carries exactly the verified claims. Otherwise it gets "Auth error" and nothing changes. |
| LectureRooms.JoinLecture | src/socket.js:22-50 | Unknown lecture: silent. Otherwise refused in order: not ongoing, unknown course, not enrolled and not instructor. The joiner ends up in the room iff admitted, gets the snapshot, and the room hears the new count. |
| LectureRooms.LeaveLecture | src/socket.js:52-63 | The connection leaves the room, the remaining members hear its new size, and the store is untouched. |
| LectureRooms.Disconnecting | src/socket.js:205-211 | The connection leaves every lecture room and no other room, and nothing is broadcast. |
| LectureRooms.AskQuestion | src/socket.js:65-92 | Refusals come in order: not ongoing, unknown course, not enrolled (instructors included). On success exactly one question, stored with the content as sent, is added and broadcast populated to the room. Empty content is silent. |
| LectureRooms.CheckModerator | src/socket.js:96-105 | Allowed iff the question, its lecture and its course exist and the caller is the course's instructor. Otherwise it denies with the first failing check's message. |
| LectureRooms.Publish | src/socket.js:106-112 | The question is saved, and its lecture's room receives it populated. |
| LectureRooms.ToggleImportant | src/socket.js:94-116 | Denied callers hear why and nothing changes. Otherwise the supplied importance is saved and broadcast. |
| LectureRooms.UpdateQuestionStatus | src/socket.js:118-140 | As above for the status. A status outside the enumeration is silent. |
| LectureRooms.Updated | src/socket.js:154-156 | Only the supplied fields change: a non-empty valid status and a present importance flag. |
| LectureRooms.UpdateQuestion | src/socket.js:142-167 | Denied callers hear why. An invalid non-empty status is silent. Otherwise the question with the updates applied is saved and broadcast. |
| LectureRooms.DeleteQuestionStep | src/socket.js:169-186 | A moderator removes exactly that question; the other questions stay, in order, and the room is told its id. Denied callers hear why and nothing changes. |
| LectureRooms.ClearQuestions | src/socket.js:188-203 | Refusals come in order (lecture, course, instructor). On success exactly that lecture's questions are removed and the room is told. |
| LectureRooms.ErrorsReachOnlyTheRequester | src/socket.js:22-203 | Every error event of every handler goes to the requester alone and leaves the server unchanged. |
| LectureRooms.HandlePreservesValid | src/socket.js:79-203 | Every handler keeps question ids, user ids, emails and rosters unique. |
| LectureRooms.RepeatedJoinCountsOnce | src/socket.js:38-46 | Joining twice leaves the rooms as one join did and reports the same count. |
| LectureRooms.DisconnectDropsOneSilently | src/socket.js:205-211 | A disconnect lowers a lecture room's size by exactly one for a member, and emits nothing. |
| LectureRooms.SetImportantRoundTrip | src/socket.js:94-116 | Setting importance and then setting it back to the old value restores the store. |
| LectureRooms.EmptyUpdateStillBroadcasts | src/socket.js:142-167 | An update with neither field keeps the stored question but still broadcasts it. |
| QuestionApi.PostQuestion | src/controllers/questionController.js:5-73 | Refusals come in order: blank content 400, unknown lecture 404, not ongoing 400 (or 500 with a missing bound), unknown course 404, not enrolled 403, and the catch's 500 when the new document fails validation. On success it answers 201 with the populated question holding the trimmed content, and stores exactly it. |
| QuestionApi.Insert | src/controllers/questionController.js:77 | Inserting into a newest-first list keeps it newest-first and adds exactly one element (a permutation). |
| QuestionApi.SortNewestFirst | src/controllers/questionController.js:77 | The result is a newest-first permutation of the input. |
| QuestionApi.ListQuestions | src/controllers/questionController.js:75-81 | The answer holds exactly the lecture's questions, each as often as stored, newest first, each with its author populated. |
| QuestionApi.MarkImportant | src/controllers/questionController.js:83-90 | An unknown id gives 404 "Not found" and changes nothing. Otherwise it answers with the found question marked important, and exactly that document is saved. |
| QuestionApi.UnmarkImportant | src/controllers/questionController.js:92-99 | An unknown id gives 404 and changes nothing. Otherwise it answers with the found question not important, and exactly that document is saved. |
| QuestionApi.SetImportance | src/controllers/questionController.js:83-99 | The found question is saved with the given importance and answered unpopulated. |
| QuestionApi.UpdateQuestion | src/controllers/questionController.js:101-109 | Unknown id: 404. Empty status: the question is saved as found and returned. Valid status: saved with it and returned. Invalid status: never answered, store unchanged. |
| QuestionApi.EmptyStatusUpdateKeepsStore | src/controllers/questionController.js:106-108 | With unique ids, an update without a status answers with the stored question and leaves the store exactly as it was. |
| QuestionApi.UpdatedStatusIsFound | src/controllers/questionController.js:101-109 | After an update with a valid status, a lookup finds the question with that status and every other field unchanged. |
| Records.SaveStoredIsNoop | src/controllers/questionController.js:107 | With unique ids, saving a document exactly as stored changes nothing. |
| Records.SaveTwice | src/socket.js:106-107 | Of two saves under one id, the later one wins. |
| Records.FindAfterSave | src/controllers/questionController.js:85-88 | After a save, a lookup by id finds the saved document. |
| QuestionApi.MarkImportantIdempotent | src/controllers/questionController.js:83-90 | Marking twice answers and stores as marking once. |
| QuestionApi.UnmarkUndoesMark | src/controllers/questionController.js:83-99 | Unmarking undoes marking a question that was not important. |
| QuestionApi.PostPreservesValid | src/controllers/questionController.js:57-61 | Posting keeps question ids unique. |
| QuestionApi.PostedQuestionIsListed | src/controllers/questionController.js:5-81 | A posted question appears, trimmed, in the next listing of its lecture. |
| LectureApi.CreateLecture | src/controllers/lectureController.js:4-17 | Unknown course 404; not its instructor 403; an empty title 500. Otherwise 201, and exactly the new lecture is stored under the fresh id. |
| LectureApi.JoinLecture | src/controllers/lectureController.js:21-37 | Unknown lecture 500; not ongoing 400; unknown course 404; not enrolled 403. Success iff an enrolled student joins an open lecture. |
| LectureApi.ListLectures | src/controllers/lectureController.js:39-53 | Unknown course 404. Admin, instructor or enrolled student get exactly the course's lectures; anyone else 403. |
| CourseApi.CreateCourse | src/controllers/courseController.js:4-17 | A missing instructor 400 comes before a blank title 400. Otherwise a course with an empty roster is stored under the fresh id. |
| CourseApi.CreatedCourseIsListed | src/controllers/courseController.js:4-29 | A created course appears in its instructor's course list as stored, and every course listed before is still listed. |
| CourseApi.ListCourses | src/controllers/courseController.js:19-29 | An admin sees every course; anyone else exactly the courses they teach or attend, unchanged. |
| CourseApi.EnrollUser | src/controllers/courseController.js:42-80 | The checks run in order (userId, courseId, user, course, already enrolled). On success exactly that user is appended to the roster and the new size is reported. |
| CourseApi.EnrollPreservesValid | src/controllers/courseController.js:64-72 | Enrolment never puts a student on a roster twice. |
| CourseApi.EnrollTwiceIsRefused | src/controllers/courseController.js:64-68 | A second enrolment of the same user is refused and changes nothing. |
| CourseApi.EnrolledStudentSeesCourse | src/controllers/courseController.js:70-72 | After enrolling, the student's course list contains the course, and they may ask in its lectures. |
| AuthApi.Register | src/controllers/authController.js:4-20 | Missing fields 400; email in use (any case) 409; failed validation 500. Otherwise 201 with a token for exactly the new user's claims, and the user is appended. |
| AuthApi.Login | src/controllers/authController.js:22-36 | Missing 400. Unknown email and wrong password both give 401 "Invalid credentials". Otherwise 200 with a token for the stored user. |
| AuthApi.CheckAuth | src/controllers/authController.js:43-49 | No token: 401 "Unauthorized". Any token: the default 500; it never succeeds. |
| AuthApi.RegisterThenLogin | src/controllers/authController.js:4-36 | Whoever registers can log in with the same password and the email in any letter case, and gets the same session. |
| LecturePath.LectureIdFromPath | frontend/src/index.jsx:16-20 | No `lectures` segment gives no id. An id is a non-empty, slash-free segment that directly follows a `lectures` segment. |
| LecturePath.FirstLecturesSegment | frontend/src/index.jsx:16-17 | Splitting a joined path gives its segments back, and `indexOf` finds the first `lectures`. |
| LecturePath.LectureIdOfPath | frontend/src/index.jsx:16-20 | The segment after the first `lectures` is the id, whatever follows it. |
| LecturePath.NoIdAfterEmptySegment | frontend/src/index.jsx:19 | An empty segment after the first `lectures` gives no id, even when a later one would. |
| LecturePath.NoIdAtEnd | frontend/src/index.jsx:19 | `lectures` as the last segment gives no id. |
| LecturePath.LecturePageAddress | frontend/src/index.jsx:16-20 | `/lectures/<id>` yields that id. |
| QuestionBoard.ToggleAnswered | frontend/src/pages/LecturePage.jsx:83-87 | Same length. Each note with the id has `answered` flipped and nothing else changed; every other note is kept. |
| QuestionBoard.ToggleImportant | frontend/src/pages/LecturePage.jsx:89-93 | Same length. Each note with the id has `important` flipped and nothing else changed; every other note is kept. |
| QuestionBoard.HandleQuestionAction | frontend/src/pages/LecturePage.jsx:73-108 | `add` appends with the fresh id; the toggles flip that field on matching notes only. `delete` keeps exactly the others; `clear-all` empties the list only when confirmed; other actions change nothing. |
| QuestionBoard.ToggleAnsweredTwice | frontend/src/pages/LecturePage.jsx:83-87 | Toggling answered twice restores the list. |
| QuestionBoard.ToggleImportantTwice | frontend/src/pages/LecturePage.jsx:89-93 | Toggling important twice restores the list. |
| QuestionBoard.DeleteIdempotent | frontend/src/pages/LecturePage.jsx:95-97 | Deleting twice is deleting once, and no note with that id remains. |
| QuestionBoard.Merge | frontend/src/pages/LecturePage.jsx:27 | Only the fields the patch carries are replaced; an empty patch changes nothing. |
| QuestionBoard.HandleUpdateQuestion | frontend/src/pages/LecturePage.jsx:24-35 | As written: notes with the id are merged and the others kept; then the call throws, and nothing is sent. |
| QuestionBoard.HandleUpdateQuestionIntended | frontend/src/pages/LecturePage.jsx:31-34 | As evidently intended: the same merge, no exception, and the same update sent exactly when a socket exists. |
| QuestionBoard.UpdateTwiceIsUpdateOnce | frontend/src/pages/LecturePage.jsx:25-29 | Repeating an update leaves the notes as the first call did. |
| QuestionBoard.OnNewQuestion | frontend/src/pages/LecturePage.jsx:145-147 | The listener, were it installed, appends the received note and keeps the rest. |
| QuestionBoard.DeleteUndoesNewQuestion | frontend/src/pages/LecturePage.jsx:95-97 | Deleting a newly received note whose id is new gives back the list as it was. |
| QuestionBoard.OnQuestionUpdated | frontend/src/pages/LecturePage.jsx:149-153 | The listener, were it installed, replaces the notes with the received id; nothing is added. |
| QuestionBoard.PageView | frontend/src/pages/LecturePage.jsx:38-43 | Keeps, in order, the unanswered or the important notes; any other filter keeps all. |
| QuestionBoard.BoardView | frontend/src/components/Whiteboard.jsx:83-88 | Keeps, in order, the answered, unanswered or important notes; any other filter keeps all. |
| QuestionBoard.BoardAnsweredUnansweredPartition | frontend/src/components/Whiteboard.jsx:84-85 | The answered and unanswered views together account for every note once. |
| QuestionBoard.TabCount | frontend/src/components/TeacherControls.jsx:54-59 | A tab's badge is the number of positions holding a note its filter keeps. |
| QuestionBoard.TabCountIsViewLength | frontend/src/pages/LecturePage.jsx:38-43 | The badge equals the length of the list the page shows under the same filter. |
| QuestionBoard.Showing | frontend/src/components/StudentControls.jsx:52-57 | "Showing X of Y": Y is the list's size, X the badge of the active filter, and X = Y unless a narrowing filter is active. |
| QuestionBoard.UnansweredBadgeComplement | frontend/src/components/StudentControls.jsx:36-41 | The unanswered badge plus the answered notes is the "all" badge. |
| QuestionBoard.MarkAllAnswered | frontend/src/components/TeacherControls.jsx:11-17 | One `{answered: true}` update per unanswered note, naming each unanswered note's id; the first names the first unanswered note, and there is none iff every note is answered. |
| QuestionBoard.MarkAllAnsweredAsWritten | frontend/src/components/TeacherControls.jsx:11-17 | As written, "Mark All Answered" marks only the notes that share the first unanswered note's id, and changes nothing when all are answered. |
| QuestionBoard.MarkAllAnsweredLeavesSecondUnanswered | frontend/src/components/TeacherControls.jsx:12-15 | As written, of two unanswered notes with different ids the second stays unanswered. |
| QuestionBoard.ApplyAnsweredUpdates | frontend/src/pages/LecturePage.jsx:24-35 | Applying answered-only updates through the intended handler marks exactly the notes whose ids they name. |
| QuestionBoard.MarkAllAnsweredAnswersAll | frontend/src/components/TeacherControls.jsx:11-17 | With the intended handler, "Mark All Answered" leaves every note answered and otherwise unchanged. |
| QuestionBoard.ClearAllRequest | frontend/src/components/Whiteboard.jsx:245-251 | The trash button requests `clear-all` iff the teacher confirms. |
| QuestionBoard.ClearAllNeedsBothConfirmations | frontend/src/pages/LecturePage.jsx:99-103 | The trash button's request reaches the page's reducer, which asks again: the list is emptied iff both confirmations are given, else unchanged. |
| QuestionBoard.TeacherClearAll | frontend/src/components/TeacherControls.jsx:19-24 | As written: a confirmed "Clear All" throws and keeps the list; an unconfirmed one does nothing. |
| QuestionBoard.TeacherClearAllNeverClears | frontend/src/pages/LecturePage.jsx:247-252 | The teacher's "Clear All" never empties a non-empty list, while the same request through the reducer with both confirmations does. |
| QuestionForms.WhiteboardSubmit | frontend/src/components/Whiteboard.jsx:16-39 | Blank input: "Question cannot be empty". A case-insensitive duplicate of a shown question: "This question has already been asked". Otherwise the text is emitted as typed, named or "Anonymous", unanswered, and the field is cleared. |
| QuestionForms.ResubmitIsRefused | frontend/src/components/Whiteboard.jsx:23-26 | After a question is added, resubmitting it in any letter case is refused under the "all" and "unanswered" filters. |
| QuestionForms.HiddenDuplicateIsAccepted | frontend/src/components/Whiteboard.jsx:23 | Under "unanswered", a question identical to an answered one is accepted. |
| QuestionForms.SubmitDisabled | frontend/src/components/QuestionForm.jsx:45 | The send button is disabled exactly when the text is empty or white space only, or a submit is in progress. |
| QuestionForms.QuestionFormSubmit | frontend/src/components/QuestionForm.jsx:8-24 | Blank text: "Please enter a question". Above 500 UTF-16 units: the length message. Otherwise the untrimmed text is submitted and the field cleared. |
| ClientSession.DeriveRole | frontend/src/components/LoginForm.jsx:16-19 | An email containing "teacher" gives teacher; otherwise one containing "ta" gives ta; otherwise student. |
| ClientSession.LoginFormSubmit | frontend/src/components/LoginForm.jsx:12-22 | Missing credentials: "Please enter credentials". Otherwise it logs in with the email and derived role and goes to the dashboard. |
| ClientSession.LoginPageSubmit | frontend/src/pages/LoginPage.jsx:13-31 | Missing email or password: "Please enter both email and password". Otherwise it logs in with exactly the email: no name, no id and no role. Then it goes to the dashboard. |
| ClientSession.RoutedLoginIsStudent | frontend/src/pages/LoginPage.jsx:22 | Every sign-in through the routed page becomes a `student` session, which the app's guard lets through. |
| ClientSession.SessionLogin | frontend/src/context/AuthContext.jsx:25-35 | Every field is kept and a missing role becomes student. |
| ClientSession.SessionLogout | frontend/src/context/AuthContext.jsx:37-41 | The session is left without a user and the app goes to "/". |
| ClientSession.LogoutLocksProtectedPages | frontend/src/context/AuthContext.jsx:37-41 | After a logout, every protected page redirects to "/", the address logout goes to. |
| ClientSession.HasRole | frontend/src/context/AuthContext.jsx:42-45 | True iff there is a user with exactly that role. |
| ClientSession.ProtectedRoute | frontend/src/components/ProtectedRoute.jsx:5-17 | No user: redirect to "/". A role outside a given list: redirect to "/dashboard". Otherwise the page is rendered. |
| ClientSession.TeacherLoginIsTurnedAway | frontend/src/App.jsx:16 | Taking the form's `useAuth` to be the session's, a form login whose email contains "teacher" is redirected by the app's guard, and every other form login gets through. |
| ClientSession.LecturePageHidesTeacherControls | frontend/src/App.jsx:24-25 | No session the lecture page's guard admits has the role `teacher`, which the teacher controls (LecturePage.jsx:245) and the trash button (Whiteboard.jsx:245) require. |
| ClientSession.UseLecture | frontend/src/hooks/useLecture.js:16-22 | Teachers see all lectures, students the live ones and TAs the completed ones, in order. Anyone else keeps the previous list. The hook's `useAuth` is taken to be the session's. |
| Text.Trim | src/controllers/questionController.js:11 | The result has no white space at either end and is empty exactly for an all-white-space input. |
| Text.IsBlank | frontend/src/components/QuestionForm.jsx:12 | `!s.trim()` holds exactly when every character of the string is white space, the empty string included. |
| Text.TrimKeepsMiddle | src/controllers/questionController.js:60 | Trimming cuts white space off the ends only and keeps the middle verbatim. |
| Text.Lower | frontend/src/components/Whiteboard.jsx:23 | Same length. Each Basic Latin capital becomes the letter 32 code points above it, and every other character is kept, so no capital remains. |
| Text.LowerIdempotent | frontend/src/components/Whiteboard.jsx:23 | Lower-casing a lower-cased string changes nothing. |
| Text.LowerIgnoresCase | frontend/src/components/Whiteboard.jsx:23 | Strings that differ only in the case of Basic Latin letters lower-case to the same string. |
| Text.Contains | frontend/src/components/LoginForm.jsx:17-18 | True exactly when the substring occurs at some position of the string. |
| Text.Split | frontend/src/index.jsx:16 | The pieces contain no separator and join back to the input. |
| Text.SplitJoin | frontend/src/index.jsx:16 | Splitting a join of separator-free pieces gives the pieces back. |
| Utf16.Length | frontend/src/components/QuestionForm.jsx:17 | The length is the character count plus the number of positions holding a character beyond the Basic Multilingual Plane; it equals the character count exactly when there is none. |
| Utf16.LengthAppend | frontend/src/components/QuestionForm.jsx:17 | The length of a concatenation is the sum of the lengths. |
| Seqs.Filter | frontend/src/pages/LecturePage.jsx:38-43 | Exactly the kept elements, each as often as in the input, in their original order. |
| Seqs.CountPositions | frontend/src/components/TeacherControls.jsx:54-59 | The length of a filtered list is the number of positions holding a kept element. |
| Seqs.FilterPartition | frontend/src/components/StudentControls.jsx:36-41 | A filter and its negation together count every element once. |
| Seqs.IndexOf | frontend/src/index.jsx:17 | The position of the first occurrence, or none exactly when the element is absent. |

## Findings

| source | as written | input that shows it | evidently intended | confidence | as-written member | corrected member |
|---|---|---|---|---|---|---|
| frontend/src/pages/LecturePage.jsx:13 | `const socket = useSocket()` binds the context value `{socket, isConnected}`, so `socket.emit` throws after the merge is queued, and `forEach` in `markAllAnswered` stops at the first call | a session with the role `teacher` clicks "Mark All Answered" with two unanswered notes of different ids: only the first is marked. The routed app never creates such a session, so this needs the unused login form or a `teacher` user already in local storage | `const { socket } = useSocket()`: every unanswered note is marked, and each update is sent when a socket exists | not executed | QuestionBoard.HandleUpdateQuestion, QuestionBoard.MarkAllAnsweredAsWritten, QuestionBoard.MarkAllAnsweredLeavesSecondUnanswered | QuestionBoard.HandleUpdateQuestionIntended, QuestionBoard.MarkAllAnsweredAnswersAll |
| frontend/src/pages/LecturePage.jsx:247-252 | the teacher controls get no `onQuestionAction`, so a confirmed "Clear All" calls `undefined` and throws | a session with the role `teacher` confirms "Clear All" on a non-empty list: the list stays. As in the row above, the routed app never creates such a session | pass `onQuestionAction` as the whiteboard gets it: after both confirmations the list is empty | not executed | QuestionBoard.TeacherClearAll, QuestionBoard.TeacherClearAllNeverClears | QuestionBoard.ClearAllRequest, QuestionBoard.ClearAllNeedsBothConfirmations |

## Left out

- I/O of every kind: HTTP parsing, cookies as headers, the socket transport, MongoDB and localStorage. Handlers take the decoded request and the store, and return the answer and the new store.
- Concurrency: every handler is one atomic step. The awaits inside a handler cannot interleave with another request.
- bcrypt's random salt and cost factor: the hash is a deterministic abstract function. The token codec, its secret and the `iat` claim are abstract too, and only the round trip `verify(sign(p)) == Some(p)` is assumed, by the lemmas that need it.
- ObjectId casting: ids are opaque strings, so a malformed id never raises a cast error. The REST join's 500 for an unknown lecture stands in for both cases.
- The error details the REST post attaches to its 400/403 answers, and the error text in its 500 body: only the status and message are modelled.
- Records.FindUser and the lookups by key: which of several equal matches the database returns is unspecified. Users and questions are looked up in insertion order; courses and lectures are maps.
- QuestionApi.SortNewestFirst: the order among questions with equal timestamps is unspecified in the database; the model's sort is one stable choice.
- `toISOString` range errors for far-away dates: every present date is treated as valid.
- socket.io's private room for each socket, the server's global `io` instance and the `participantCount` of rooms other than lecture rooms.
- AuthApi logout, and `getCourseById` in the course controller: they only clear a cookie or read one course.
- The routes and server wiring (`src/routes/*.js`, `src/server.js`); only which routes lack `requireAuth` is reflected.
- The whiteboard's drag positions, context menu and layout, and all rendering.
- The mock data of the lecture page and of `useLecture`: the model takes the list as a parameter.
- The lecture page's socket listeners: as written they are never installed, because `socket.on` throws inside the loader's `try`. The catch then sets an error message that the page never renders. The listener models state what the page would do. They take notes, while the server's events carry `_id`, `content` and `isImportant` rather than the note's `id`, `text` and `important`; that mismatch is not modelled.
- React's handling of an exception thrown in a click handler: the model ends the handler at the throw and applies the state updates it queued before it, and nothing else.
- AuthContext's `window.location.href` redirect after login, and the session's copy in localStorage: only the resulting user and the address the page itself navigates to are modelled.
- ClientSession.LoginPageSubmit: the sign-in page passes the password along with the email, and the session keeps it in the user object and in localStorage. The session model has no password field.
- The lecture page's lifecycle: mounting, re-rendering and unmounting are not modelled. The effect that would install the listeners returns a cleanup that calls `socket.off` on the same context object, and that throws a TypeError too. The effect depends on `socket`, which is a new `{socket, isConnected}` object on every render of the socket provider. So the cleanup runs, and throws, when the provider re-renders after a navigation that carries the lecture (its `setLectureId`), or when the page is left. React treats such an error as uncaught and unmounts the tree. None of this is in the model.
- LectureRooms.Disconnecting: the disconnected connection keeps its entry among the server's users, so the model would accept further requests from it. socket.io drops the socket, and those requests cannot happen.
- Text.Lower: models `toLowerCase` on the Basic Latin letters only. Other scripts' case mappings are left as they are, which is weaker than JavaScript's full Unicode mapping.
- Http.NoReply: a rejected promise in an async handler without a catch is modelled as Express 4 treats it, as a request left unanswered. The Express and Node versions are not part of the sources. Express 5 would answer such a request with its default 500. On Node 15 or later with Express 4, the unhandled rejection ends the server process by default.
- LectureRooms.ToggleImportant: the payload's `isImportant` is taken as a boolean. A missing one is not modelled: the handler would assign `undefined`, which unsets the field, save, and broadcast a question without it. Values Mongoose casts, such as "true", are not modelled either.
- LectureRooms.UpdateQuestionStatus: the payload's `status` is taken as a string, and the empty string is silent, as the enumeration rejects it. A missing status is not modelled: the enumeration validator skips `undefined`, so the field would be unset, saved and broadcast.
- LectureRooms.UpdateQuestion: a payload without an `updates` object is not modelled. Reading its fields throws, which the catch swallows, so that request is silent.
- Text.Trim: its white-space set is the ECMAScript WhiteSpace and LineTerminator characters listed in the model. Any later Unicode additions to the space separators are not tracked.

=== FILE: auth.dfy ===
/** Token verification and the two request guards of `src/utils/auth.js`. The token codec
    itself (JSON Web Token signing and verification) is abstract. */
module Auth {

  import opened Optional
  import opened Records

  /** The claims every issued token carries. */
  datatype Payload = Payload(id: Id, email: string, role: Role)

  /** `jwt.verify(token, secret)`: the claims of a token it accepts, None for one it throws on. */
  type Verifier = string -> Option<Payload>

  /** `jwt.sign(payload, secret)`. */
  type Signer = Payload -> string

  /** The claims issued for a user: exactly its id, stored email and role. */
  function Claims(u: User): Payload {
    Payload(u.id, u.email, u.role)
  }

  /** `verifyJwt(token)`. The library throws on a missing or empty token as on a rejected one,
      and the catch turns every throw into null, so the result is absent exactly then. */
  function VerifyJwt(verify: Verifier, token: Option<string>): (r: Option<Payload>)
    ensures token.None? || token == Some("") ==> r.None?
    ensures r.Some? ==> token.Some? && token.value != "" && verify(token.value) == r
    ensures token.Some? && token.value != "" && verify(token.value).Some? ==> r.Some?
  {
    match token
    case None => None
    case Some(t) => if t == "" then None else verify(t)
  }

  /** A middleware's decision: call `next` with `req.user` set, or answer `{message}` with a status. */
  datatype Gate = Next(user: Payload) | Deny(code: int, message: string)

  /** `requireAuth`: reads the `token` cookie. */
  function RequireAuth(cookie: Option<string>, verify: Verifier): (g: Gate)
    ensures cookie.None? || cookie == Some("") ==> g == Deny(401, "Missing token")
    ensures cookie.Some? && cookie.value != "" && verify(cookie.value).None? ==> g == Deny(401, "Invalid token")
    ensures g.Next? <==> VerifyJwt(verify, cookie).Some?
    ensures g.Next? ==> Some(g.user) == VerifyJwt(verify, cookie)
  {
    if cookie.None? || cookie.value == "" then Deny(401, "Missing token")
    else
      match VerifyJwt(verify, cookie)
      case None => Deny(401, "Invalid token")
      case Some(p) => Next(p)
  }

  /** `requireRole(allowedRoles)` (whose default is the empty list) applied to `req.user`. */
  function RequireRole(allowed: seq<Role>, user: Option<Payload>): (g: Gate)
    ensures user.None? ==> g == Deny(401, "Unauthorized")
    ensures user.Some? ==> (g.Next? <==> user.value.role in allowed)
    ensures user.Some? && g.Deny? ==> g == Deny(403, "Forbidden")
    ensures g.Next? ==> g.user == user.value
    ensures allowed == [] ==> g.Deny?
  {
    if user.None? then Deny(401, "Unauthorized")
    else if user.value.role !in allowed then Deny(403, "Forbidden")
    else Next(user.value)
  }
}

=== FILE: auth_api.dfy ===
/** The REST account handlers of `src/controllers/authController.js`. Hashing and token signing
    are abstract: `hash` stands for bcrypt, `sign` and `verify` for the token codec. */
module AuthApi {

  import opened Optional
  import opened Text
  import opened Records
  import opened Auth
  import opened Http
  import LectureRooms

  /** The user as the account responses render it: id, name, email and role, nothing else. */
  datatype UserView = UserView(id: Id, name: string, email: string, role: Role)

  /** The body of a successful register or login; the `token` cookie is set to the same token. */
  datatype Session = Session(token: string, user: UserView)

  function View(u: User): (v: UserView)
    ensures v.id == u.id && v.name == u.name && v.email == u.email && v.role == u.role
  {
    UserView(u.id, u.name, u.email, u.role)
  }

  /** `register {name, email, password, role}` at time `now`; `freshId` is the new user's id.
      Missing fields are refused first, then an email already in use (matched lower-cased);
      a failed validation on save (an unknown role, say) ends in the catch's 500. */
  function Register(s: Store, name: string, email: string, password: string, role: Option<string>,
                    hash: Hasher, sign: Signer, now: int, freshId: Id): (h: Handled<Session>)
    requires FreshUserId(s.users, freshId)
    ensures name == "" || email == "" || password == "" ==> h == Handled(Refuse(400, "Missing fields"), s)
    ensures name != "" && email != "" && password != "" && FindUserByEmail(s.users, email).Some? ==>
              h == Handled(Refuse(409, "Email already used"), s)
    ensures h.response.Reply? <==>
              && name != "" && email != "" && password != ""
              && FindUserByEmail(s.users, email).None?
              && CreateUser(freshId, name, email, password, role, hash, now).Some?
    ensures h.response.Reply? ==>
              var u := CreateUser(freshId, name, email, password, role, hash, now).value;
              && h.store == s.(users := s.users + [u])
              && h.response == Reply(201, Session(sign(Claims(u)), View(u)))
    ensures !h.response.Reply? ==> h.store == s
    ensures h.response.Refuse? && h.response.code == 500 ==>
              CreateUser(freshId, name, email, password, role, hash, now).None?
    ensures name != "" && email != "" && password != "" && FindUserByEmail(s.users, email).None?
            && CreateUser(freshId, name, email, password, role, hash, now).None? ==>
              h == Handled(ServerError(), s)
  {
    if name == "" || email == "" || password == "" then Handled(Refuse(400, "Missing fields"), s)
    else if FindUserByEmail(s.users, email).Some? then Handled(Refuse(409, "Email already used"), s)
    else
      match CreateUser(freshId, name, email, password, role, hash, now)
      case None => Handled(ServerError(), s)
      case Some(u) => Handled(Reply(201, Session(sign(Claims(u)), View(u))), s.(users := s.users + [u]))
  }

  /** `login {email, password}`. An unknown email and a wrong password get the same answer. */
  function Login(s: Store, email: string, password: string, hash: Hasher, sign: Signer): (r: Response<Session>)
    ensures email == "" || password == "" ==> r == Refuse(400, "Missing")
    ensures r.Reply? <==>
              && email != "" && password != ""
              && FindUserByEmail(s.users, email).Some?
              && ValidatePassword(FindUserByEmail(s.users, email).value, password, hash)
    ensures email != "" && password != "" && !r.Reply? ==> r == Refuse(401, "Invalid credentials")
    ensures r.Reply? ==>
              var u := FindUserByEmail(s.users, email).value;
              r == Reply(200, Session(sign(Claims(u)), View(u)))
  {
    if email == "" || password == "" then Refuse(400, "Missing")
    else
      match FindUserByEmail(s.users, email)
      case None => Refuse(401, "Invalid credentials")
      case Some(u) =>
        if !ValidatePassword(u, password, hash) then Refuse(401, "Invalid credentials")
        else Reply(200, Session(sign(Claims(u)), View(u)))
  }

  /** `checkAuth`. With no token the caller gets 401; with one, the handler calls a verifier it
      never imported, and the synchronous throw becomes Express's default 500. */
  function CheckAuth(cookie: Option<string>): (r: Response<Payload>)
    ensures cookie.None? || cookie == Some("") ==> r == Refuse(401, "Unauthorized")
    ensures cookie.Some? && cookie.value != "" ==> r == Crash
    ensures !r.Reply?
  {
    if cookie.None? || cookie.value == "" then Refuse(401, "Unauthorized") else Crash
  }

  /** Registering keeps user ids and emails unique. */
  lemma RegisterPreservesValid(s: Store, name: string, email: string, password: string, role: Option<string>,
                               hash: Hasher, sign: Signer, now: int, freshId: Id)
    requires Valid(s)
    requires FreshUserId(s.users, freshId)
    ensures Valid(Register(s, name, email, password, role, hash, sign, now, freshId).store)
  {
  }

  /** Whoever has just registered can log in with the same email, in any letter case, and the same
      password, and gets a token with the same claims. */
  lemma {:induction false} RegisterThenLogin(s: Store, name: string, email: string, password: string,
                                             role: Option<string>, hash: Hasher, sign: Signer, now: int, freshId: Id,
                                             loginEmail: string)
    requires FreshUserId(s.users, freshId)
    requires Register(s, name, email, password, role, hash, sign, now, freshId).response.Reply?
    requires Lower(loginEmail) == Lower(email)
    ensures var h := Register(s, name, email, password, role, hash, sign, now, freshId);
            Login(h.store, loginEmail, password, hash, sign) == Reply(200, h.response.body)
  {
    var h := Register(s, name, email, password, role, hash, sign, now, freshId);
    var u := CreateUser(freshId, name, email, password, role, hash, now).value;
    var users := s.users + [u];
    assert loginEmail != "" by {
      assert |Lower(loginEmail)| == |loginEmail| && |Lower(email)| == |email|;
    }
    var found := FindUserByEmail(users, loginEmail);
    assert users[|s.users|] == u;
    var k :| 0 <= k < |users| && users[k] == found.value;
    if k < |s.users| {
      assert false;
    }
  }

  /** The register round trip through the socket: if the codec reads back what it signs, the
      issued token admits a connection whose identity is exactly the new user's claims. */
  lemma RegisterThenConnect(s: Store, name: string, email: string, password: string, role: Option<string>,
                            hash: Hasher, sign: Signer, verify: Verifier, now: int, freshId: Id,
                            srv: LectureRooms.Server, conn: LectureRooms.ConnId)
    requires FreshUserId(s.users, freshId)
    requires forall p :: verify(sign(p)) == Some(p)
    requires conn !in srv.users
    requires Register(s, name, email, password, role, hash, sign, now, freshId).response.Reply?
    ensures var session := Register(s, name, email, password, role, hash, sign, now, freshId).response.body;
            var u := CreateUser(freshId, name, email, password, role, hash, now).value;
            var h := LectureRooms.Handshake(Some(session.token), None);
            session.token != "" ==>
              LectureRooms.Connect(srv, conn, h, verify).server.users[conn] == Claims(u)
  {
  }

  /** The same through the REST guard: the issued token, sent back as the cookie, passes
      `requireAuth` with the new user's claims. */
  lemma RegisterThenRequireAuth(s: Store, name: string, email: string, password: string, role: Option<string>,
                                hash: Hasher, sign: Signer, verify: Verifier, now: int, freshId: Id)
    requires FreshUserId(s.users, freshId)
    requires forall p :: verify(sign(p)) == Some(p)
    requires Register(s, name, email, password, role, hash, sign, now, freshId).response.Reply?
    ensures var session := Register(s, name, email, password, role, hash, sign, now, freshId).response.body;
            var u := CreateUser(freshId, name, email, password, role, hash, now).value;
            session.token != "" ==> RequireAuth(Some(session.token), verify) == Next(Claims(u))
  {
  }
}

=== FILE: client_session.dfy ===
/** Who the client thinks the user is and where it lets them go: the routed sign-in page
    (`frontend/src/pages/LoginPage.jsx`), the login form no page uses
    (`frontend/src/components/LoginForm.jsx`), the session held by
    `frontend/src/context/AuthContext.jsx`, the route guard
    (`frontend/src/components/ProtectedRoute.jsx`) and the role-based lecture list
    (`frontend/src/hooks/useLecture.js`). Client roles are plain strings, since the client uses
    `teacher` where the server's enumeration has `instructor`. */
module ClientSession {

  import opened Optional
  import opened Text
  import opened Seqs

  /** The session's user object; an empty role counts as missing. */
  datatype ClientUser = ClientUser(email: string, name: string, id: Option<string>, role: string)

  // ---------------------------------------------------------------------------------------
  // The login form
  // ---------------------------------------------------------------------------------------

  /** The role the form guesses from the email address. */
  function DeriveRole(email: string): (role: string)
    ensures Contains(email, "teacher") ==> role == "teacher"
    ensures !Contains(email, "teacher") && Contains(email, "ta") ==> role == "ta"
    ensures !Contains(email, "teacher") && !Contains(email, "ta") ==> role == "student"
  {
    if Contains(email, "teacher") then "teacher"
    else if Contains(email, "ta") then "ta"
    else "student"
  }

  /** A submit either shows an error or hands `{email, role}` to the session and goes to the
      dashboard. */
  datatype LoginOutcome = ShowError(message: string) | LogIn(data: ClientUser, navigateTo: string)

  /** `handleSubmit`; the password is checked for presence only. */
  function LoginFormSubmit(email: string, password: string): (r: LoginOutcome)
    ensures email == "" || password == "" ==> r == ShowError("Please enter credentials")
    ensures r.LogIn? <==> email != "" && password != ""
    ensures r.LogIn? ==> r.data == ClientUser(email, "", None, DeriveRole(email)) && r.navigateTo == "/dashboard"
  {
    if email == "" || password == "" then ShowError("Please enter credentials")
    else LogIn(ClientUser(email, "", None, DeriveRole(email)), "/dashboard")
  }

  /** The routed sign-in page's `handleSubmit`: it hands `{email, password}` to the session with no
      role, and goes to the dashboard. The session model keeps no password, so the role is left
      empty, which is how a missing role is written here. */
  function LoginPageSubmit(email: string, password: string): (r: LoginOutcome)
    ensures r.LogIn? <==> email != "" && password != ""
    ensures r.ShowError? ==> r.message == "Please enter both email and password"
    ensures r.LogIn? ==> r == LogIn(ClientUser(email, "", None, ""), "/dashboard")
  {
    if email == "" || password == "" then ShowError("Please enter both email and password")
    else LogIn(ClientUser(email, "", None, ""), "/dashboard")
  }

  // ---------------------------------------------------------------------------------------
  // The session
  // ---------------------------------------------------------------------------------------

  /** `login(userData)`: every field is kept, and a missing role becomes `student`. */
  function SessionLogin(data: ClientUser): (u: ClientUser)
    ensures u.email == data.email && u.name == data.name && u.id == data.id
    ensures data.role != "" ==> u.role == data.role
    ensures data.role == "" ==> u.role == "student"
    ensures u.role != ""
  {
    data.(role := if data.role == "" then "student" else data.role)
  }

  /** What `logout()` leaves: the session without a user, and the address it goes to. */
  datatype LoggedOut = LoggedOut(user: Option<ClientUser>, navigateTo: string)

  /** `logout()`: the user is forgotten and the app goes back to the sign-in page. */
  function SessionLogout(): (r: LoggedOut)
    ensures r.user.None? && r.navigateTo == "/"
  {
    LoggedOut(None, "/")
  }

  /** After a logout every protected page sends the browser to the sign-in page, the address
      logout itself goes to. */
  lemma LogoutLocksProtectedPages(allowedRoles: Option<seq<string>>)
    ensures ProtectedRoute(SessionLogout().user, allowedRoles) == Redirect(SessionLogout().navigateTo)
  {
  }

  /** `hasRole(requiredRole)`. */
  function HasRole(user: Option<ClientUser>, required: string): (b: bool)
    ensures user.None? ==> !b
    ensures user.Some? ==> (b <==> user.value.role == required)
  {
    user.Some? && user.value.role == required
  }

  /** Logging in twice is logging in once. */
  lemma SessionLoginIdempotent(data: ClientUser)
    ensures SessionLogin(SessionLogin(data)) == SessionLogin(data)
  {
  }

  // ---------------------------------------------------------------------------------------
  // The route guard
  // ---------------------------------------------------------------------------------------

  datatype Route = Redirect(to: string) | Outlet

  /** `ProtectedRoute({allowedRoles})`; a missing list admits every signed-in user. */
  function ProtectedRoute(user: Option<ClientUser>, allowedRoles: Option<seq<string>>): (r: Route)
    ensures user.None? ==> r == Redirect("/")
    ensures user.Some? && allowedRoles.None? ==> r == Outlet
    ensures user.Some? && allowedRoles.Some? ==>
              (r == Outlet <==> user.value.role in allowedRoles.value)
    ensures user.Some? && allowedRoles.Some? && user.value.role !in allowedRoles.value ==> r == Redirect("/dashboard")
    ensures r.Redirect? ==> r.to in {"/", "/dashboard"}
  {
    if user.None? then Redirect("/")
    else if allowedRoles.Some? && user.value.role !in allowedRoles.value then Redirect("/dashboard")
    else Outlet
  }

  /** The role list every protected page of the app is mounted under. */
  const AppRoles: seq<string> := ["instructor", "student", "ta"]

  /** A guard with a single role admits exactly the users `hasRole` accepts. */
  lemma GuardAgreesWithHasRole(user: Option<ClientUser>, role: string)
    ensures ProtectedRoute(user, Some([role])) == Outlet <==> HasRole(user, role)
  {
  }

  /** The two files disagree on the instructor's role: the login form never produces
      `instructor`, and everyone it files as `teacher` is sent back to the dashboard by the app's
      guard, whose own page is behind the same guard, while students and TAs get through. The
      form takes `useAuth` from `hooks/useAuth`, which is not part of this model; it is taken to
      be the session's `login`. */
  lemma TeacherLoginIsTurnedAway(email: string, password: string)
    requires LoginFormSubmit(email, password).LogIn?
    ensures var u := SessionLogin(LoginFormSubmit(email, password).data);
            && u.role != "instructor"
            && (Contains(email, "teacher") <==> ProtectedRoute(Some(u), Some(AppRoles)) == Redirect("/dashboard"))
            && (!Contains(email, "teacher") ==> ProtectedRoute(Some(u), Some(AppRoles)) == Outlet)
  {
    var u := SessionLogin(LoginFormSubmit(email, password).data);
    assert u.role == DeriveRole(email);
    if !Contains(email, "teacher") {
      assert u.role == "ta" || u.role == "student";
      assert u.role in AppRoles by {
        if u.role == "ta" { assert AppRoles[2] == "ta"; } else { assert AppRoles[1] == "student"; }
      }
    }
  }

  /** The routed app signs everyone in as a student: the sign-in page passes no role, so the
      session fills in `student`, and the app's guard lets that session through. */
  lemma RoutedLoginIsStudent(email: string, password: string)
    requires LoginPageSubmit(email, password).LogIn?
    ensures var u := SessionLogin(LoginPageSubmit(email, password).data);
            && u.role == "student"
            && ProtectedRoute(Some(u), Some(AppRoles)) == Outlet
  {
    assert AppRoles[1] == "student";
  }

  /** The lecture page shows the teacher controls, and the whiteboard its trash button, only to a
      `teacher`; the guard the page is mounted under never admits one. So for any session at all,
      those controls are never on screen. */
  lemma LecturePageHidesTeacherControls(user: Option<ClientUser>)
    requires ProtectedRoute(user, Some(AppRoles)) == Outlet
    ensures !HasRole(user, "teacher")
  {
    assert "teacher" !in AppRoles;
  }

  // ---------------------------------------------------------------------------------------
  // The lecture list
  // ---------------------------------------------------------------------------------------

  /** A lecture as the hook lists it. */
  datatype LectureItem = LectureItem(id: int, name: string, status: string)

  /** `useLecture`'s effect on the previous list `prev` given the available lectures: teachers see
      all, students the live ones, TAs the completed ones, in order; for anyone else, or no user,
      the list is left as it was. The hook takes `useAuth` from `hooks/useAuth`, which is not part
      of this model; `user` is taken to be the session's. */
  function UseLecture(prev: seq<LectureItem>, user: Option<ClientUser>, available: seq<LectureItem>)
    : (r: seq<LectureItem>)
    ensures HasRole(user, "teacher") ==> r == available
    ensures HasRole(user, "student") ==>
              IsSubsequence(r, available) && forall l :: l in r <==> l in available && l.status == "live"
    ensures HasRole(user, "ta") ==>
              IsSubsequence(r, available) && forall l :: l in r <==> l in available && l.status == "completed"
    ensures !HasRole(user, "teacher") && !HasRole(user, "student") && !HasRole(user, "ta") ==> r == prev
  {
    if HasRole(user, "teacher") then available
    else if HasRole(user, "student") then Filter(available, (l: LectureItem) => l.status == "live")
    else if HasRole(user, "ta") then Filter(available, (l: LectureItem) => l.status == "completed")
    else prev
  }

  /** The student and TA views never share a lecture, and both lie within the teacher's view. */
  lemma StudentAndTaViewsAreDisjoint(prev: seq<LectureItem>, student: ClientUser, ta: ClientUser,
                                     teacher: ClientUser, available: seq<LectureItem>)
    requires student.role == "student" && ta.role == "ta" && teacher.role == "teacher"
    ensures var s := UseLecture(prev, Some(student), available);
            var t := UseLecture(prev, Some(ta), available);
            var all := UseLecture(prev, Some(teacher), available);
            && (forall l :: l in s ==> l !in t)
            && (forall l :: l in s || l in t ==> l in all)
  {
  }
}

=== FILE: course_api.dfy ===
/** The REST course handlers of `src/controllers/courseController.js`. None has a try/catch;
    `createCourse` and `enrollUser` are mounted without `requireAuth`, so they take no caller. */
module CourseApi {

  import opened Text
  import opened Seqs
  import opened Records
  import opened Auth
  import opened Http
  import LectureRooms

  /** A created course as the response renders it. */
  datatype CourseDoc = CourseDoc(id: Id, course: Course)

  /** `POST / {title, instructorId}` at time `now`; `freshId` is the new course's id. A missing
      instructor is refused before a missing or blank title. The stored title is not trimmed and
      the roster starts empty. */
  function CreateCourse(s: Store, title: string, instructorId: Id, now: int, freshId: Id): (h: Handled<CourseDoc>)
    requires freshId !in s.courses
    ensures instructorId == "" ==> h == Handled(Refuse(400, "instructorId is required"), s)
    ensures instructorId != "" && IsBlank(title) ==> h == Handled(Refuse(400, "title is required"), s)
    ensures h.response.Reply? <==> instructorId != "" && !IsBlank(title)
    ensures h.response.Reply? ==>
              var c := Course(title, instructorId, [], now);
              && h.response == Reply(201, CourseDoc(freshId, c))
              && h.store == s.(courses := s.courses[freshId := c])
    ensures !h.response.Reply? ==> h.store == s
  {
    if instructorId == "" then Handled(Refuse(400, "instructorId is required"), s)
    else if IsBlank(title) then Handled(Refuse(400, "title is required"), s)
    else
      var c := Course(title, instructorId, [], now);
      Handled(Reply(201, CourseDoc(freshId, c)), s.(courses := s.courses[freshId := c]))
  }

  /** `GET /`: an admin sees every course; anyone else exactly the courses they teach or are
      enrolled in. */
  function ListCourses(s: Store, user: Payload): (r: Response<map<Id, Course>>)
    ensures r.Reply? && r.code == 200
    ensures user.role == Admin ==> r.body == s.courses
    ensures user.role != Admin ==>
              forall id :: id in r.body <==>
                id in s.courses && (s.courses[id].instructorId == user.id || user.id in s.courses[id].students)
    ensures forall id :: id in r.body ==> id in s.courses && r.body[id] == s.courses[id]
  {
    if user.role == Admin then Reply(200, s.courses)
    else Reply(200, map id | id in s.courses && (s.courses[id].instructorId == user.id || user.id in s.courses[id].students)
                             :: s.courses[id])
  }

  /** The success answer of `enrollUser`. */
  datatype Enrolment = Enrolment(message: string, courseId: Id, userId: Id, totalStudents: nat)

  /** `POST /enroll {userId, courseId}`: the checks run in order, and only a user not yet on the
      roster is appended to it. */
  function EnrollUser(s: Store, userId: Id, courseId: Id): (h: Handled<Enrolment>)
    ensures userId == "" ==> h == Handled(Refuse(400, "userId is required"), s)
    ensures userId != "" && courseId == "" ==> h == Handled(Refuse(400, "courseId is required"), s)
    ensures userId != "" && courseId != "" && FindUser(s.users, userId).None? ==>
              h == Handled(Refuse(404, "User not found"), s)
    ensures userId != "" && courseId != "" && FindUser(s.users, userId).Some? && courseId !in s.courses ==>
              h == Handled(Refuse(404, "Course not found"), s)
    ensures userId != "" && courseId != "" && FindUser(s.users, userId).Some? && courseId in s.courses
            && userId in s.courses[courseId].students ==>
              h == Handled(Refuse(400, "User is already enrolled in this course"), s)
    ensures h.response.Reply? <==>
              && userId != "" && courseId != "" && FindUser(s.users, userId).Some?
              && courseId in s.courses && userId !in s.courses[courseId].students
    ensures h.response.Reply? ==>
              var c := s.courses[courseId];
              && h.store == s.(courses := s.courses[courseId := c.(students := c.students + [userId])])
              && h.response == Reply(200, Enrolment("User enrolled successfully", courseId, userId, |c.students| + 1))
    ensures !h.response.Reply? ==> h.store == s
  {
    if userId == "" then Handled(Refuse(400, "userId is required"), s)
    else if courseId == "" then Handled(Refuse(400, "courseId is required"), s)
    else if FindUser(s.users, userId).None? then Handled(Refuse(404, "User not found"), s)
    else if courseId !in s.courses then Handled(Refuse(404, "Course not found"), s)
    else
      var c := s.courses[courseId];
      if userId in c.students then Handled(Refuse(400, "User is already enrolled in this course"), s)
      else
        var c' := c.(students := c.students + [userId]);
        Handled(Reply(200, Enrolment("User enrolled successfully", courseId, userId, |c'.students|)),
                s.(courses := s.courses[courseId := c']))
  }

  /** Enrolment keeps every roster free of duplicates. */
  lemma {:induction false} EnrollPreservesValid(s: Store, userId: Id, courseId: Id)
    requires Valid(s)
    ensures Valid(EnrollUser(s, userId, courseId).store)
  {
    var h := EnrollUser(s, userId, courseId);
    if h.response.Reply? {
      var students := s.courses[courseId].students;
      var grown := students + [userId];
      assert NoDuplicates(grown) by {
        forall i, j | 0 <= i < j < |grown|
          ensures grown[i] != grown[j]
        {
          if j == |students| {
            assert grown[i] == students[i];
          }
        }
      }
    }
  }

  /** Enrolling is idempotent on the store: a second enrolment of the same user is refused and
      changes nothing. */
  lemma EnrollTwiceIsRefused(s: Store, userId: Id, courseId: Id)
    requires EnrollUser(s, userId, courseId).response.Reply?
    ensures var once := EnrollUser(s, userId, courseId).store;
            EnrollUser(once, userId, courseId) == Handled(Refuse(400, "User is already enrolled in this course"), once)
  {
    var once := EnrollUser(s, userId, courseId).store;
    assert once.users == s.users;
    assert userId in once.courses[courseId].students;
  }

  /** An enrolled student sees the course in their list, and may ask in its lectures' rooms. */
  lemma EnrolledStudentSeesCourse(s: Store, user: Payload, courseId: Id, lectureId: Id)
    requires EnrollUser(s, user.id, courseId).response.Reply?
    ensures var after := EnrollUser(s, user.id, courseId).store;
            && courseId in ListCourses(after, user).body
            && (lectureId in after.lectures && after.lectures[lectureId].course == courseId ==>
                  LectureRooms.MayAsk(user, LectureRooms.CourseOf(after, lectureId)))
  {
    var after := EnrollUser(s, user.id, courseId).store;
    assert user.id in after.courses[courseId].students;
  }

  /** A created course is listed for its instructor with what was stored, its roster is empty, and
      every course listed before is still listed. */
  lemma CreatedCourseIsListed(s: Store, title: string, instructor: Payload, now: int, freshId: Id)
    requires freshId !in s.courses
    requires CreateCourse(s, title, instructor.id, now, freshId).response.Reply?
    ensures var after := CreateCourse(s, title, instructor.id, now, freshId).store;
            && freshId in ListCourses(after, instructor).body
            && ListCourses(after, instructor).body[freshId] == Course(title, instructor.id, [], now)
            && forall id :: id in ListCourses(s, instructor).body ==> id in ListCourses(after, instructor).body
  {
    var after := CreateCourse(s, title, instructor.id, now, freshId).store;
    assert after.courses[freshId].instructorId == instructor.id;
  }
}

=== FILE: http.dfy ===
/** What an Express handler does with the response, and the store it leaves behind. */
module Http {

  import opened Records

  datatype Response<+T> =
      /** `res.status(code).json(body)`; `res.json(body)` is code 200. */
    | Reply(code: int, body: T)
      /** `res.status(code).json({ message })`. */
    | Refuse(code: int, message: string)
      /** A synchronous throw: Express's default error handler answers 500. */
    | Crash
      /** A rejected promise in an async handler without try/catch: Express 4 never answers. */
    | NoReply

  datatype Handled<+T> = Handled(response: Response<T>, store: Store)

  /** `res.status(500).json({ message: "server error" })` from a handler's catch block. */
  function ServerError<T>(): Response<T> {
    Refuse(500, "server error")
  }
}

=== FILE: lecture_api.dfy ===
/** The REST lecture handlers of `src/controllers/lectureController.js`, all behind
    `requireAuth`. Each handler's catch answers 500 "server error". */
module LectureApi {

  import opened Optional
  import opened Records
  import opened Auth
  import opened Http
  import LectureRooms

  /** A created lecture as the response renders it: its new id and its fields. */
  datatype LectureDoc = LectureDoc(id: Id, lecture: Lecture)

  /** `POST /:courseId/lectures {title, startTime, endTime}` at time `now`; `freshId` is the id
      the store gives the new lecture. Only the course's instructor may create one; the schema's
      `required` validators (course, title) make an empty one throw into the catch. */
  function CreateLecture(s: Store, user: Payload, courseId: Id, title: string,
                         startTime: Option<int>, endTime: Option<int>, now: int, freshId: Id)
    : (h: Handled<LectureDoc>)
    requires freshId !in s.lectures
    ensures courseId !in s.courses ==> h == Handled(Refuse(404, "Course not found"), s)
    ensures courseId in s.courses && s.courses[courseId].instructorId != user.id ==>
              h == Handled(Refuse(403, "Not instructor for this course"), s)
    ensures courseId in s.courses && s.courses[courseId].instructorId == user.id && (title == "" || courseId == "") ==>
              h == Handled(ServerError(), s)
    ensures h.response.Reply? <==>
              courseId in s.courses && s.courses[courseId].instructorId == user.id && title != "" && courseId != ""
    ensures h.response.Reply? ==>
              var l := h.response.body.lecture;
              && h.response.code == 201 && h.response.body.id == freshId
              && l.course == courseId && l.title == title && l.startTime == startTime && l.endTime == endTime
              && l.createdAt == now
              && h.store == s.(lectures := s.lectures[freshId := l])
    ensures !h.response.Reply? ==> h.store == s
  {
    if courseId !in s.courses then Handled(Refuse(404, "Course not found"), s)
    else if s.courses[courseId].instructorId != user.id then Handled(Refuse(403, "Not instructor for this course"), s)
    else if title == "" || courseId == "" then Handled(ServerError(), s)
    else
      var l := Lecture(courseId, title, startTime, endTime, now);
      Handled(Reply(201, LectureDoc(freshId, l)), s.(lectures := s.lectures[freshId := l]))
  }

  /** `POST /join/:lectureId`. The lecture is dereferenced before its null check, so an unknown
      lecture ends in the catch's 500. Only enrolled students pass; the instructor does not. The
      answer `{ok: true}` is the body `true`. */
  function JoinLecture(s: Store, user: Payload, lectureId: Id, now: int): (r: Response<bool>)
    ensures lectureId !in s.lectures ==> r == ServerError()
    ensures lectureId in s.lectures && !IsOngoing(s.lectures[lectureId], now) ==>
              r == Refuse(400, "Lecture not ongoing")
    ensures lectureId in s.lectures && IsOngoing(s.lectures[lectureId], now)
            && s.lectures[lectureId].course !in s.courses ==>
              r == Refuse(404, "Course not found")
    ensures r.Reply? <==>
              && lectureId in s.lectures
              && IsOngoing(s.lectures[lectureId], now)
              && s.lectures[lectureId].course in s.courses
              && user.id in s.courses[s.lectures[lectureId].course].students
    ensures r.Reply? ==> r == Reply(200, true)
    ensures LectureRooms.LectureOpen(s, lectureId, now) && !r.Reply? ==> r == Refuse(403, "Not enrolled in course")
  {
    if lectureId !in s.lectures then ServerError()
    else
      var l := s.lectures[lectureId];
      if !IsOngoing(l, now) then Refuse(400, "Lecture not ongoing")
      else if l.course !in s.courses then Refuse(404, "Course not found")
      else if user.id !in s.courses[l.course].students then Refuse(403, "Not enrolled in course")
      else Reply(200, true)
  }

  /** `GET /:courseId/lectures`: an admin, the instructor or an enrolled student sees exactly the
      course's lectures; anyone else is refused. */
  function ListLectures(s: Store, user: Payload, courseId: Id): (r: Response<map<Id, Lecture>>)
    ensures courseId !in s.courses ==> r == Refuse(404, "Course not found")
    ensures courseId in s.courses ==>
              (r.Reply? <==> user.role == Admin || s.courses[courseId].instructorId == user.id
                             || user.id in s.courses[courseId].students)
    ensures courseId in s.courses && !r.Reply? ==> r == Refuse(403, "Forbidden")
    ensures r.Reply? ==>
              && r.code == 200
              && (forall id :: id in r.body <==> id in s.lectures && s.lectures[id].course == courseId)
              && (forall id :: id in r.body ==> r.body[id] == s.lectures[id])
  {
    if courseId !in s.courses then Refuse(404, "Course not found")
    else
      var c := s.courses[courseId];
      if user.role != Admin && c.instructorId != user.id && user.id !in c.students then Refuse(403, "Forbidden")
      else Reply(200, map id | id in s.lectures && s.lectures[id].course == courseId :: s.lectures[id])
  }

  /** The REST join is the stricter rule: whoever it admits may also join the lecture's room,
      while the course's instructor, unless also enrolled, is admitted only by the socket. */
  lemma RestJoinIsStricterThanSocketJoin(srv: LectureRooms.Server, conn: LectureRooms.ConnId, lectureId: Id, now: int)
    requires conn in srv.users
    ensures JoinLecture(srv.store, srv.users[conn], lectureId, now).Reply? ==>
              conn in LectureRooms.Members(LectureRooms.JoinLecture(srv, conn, lectureId, now).server.rooms,
                                           LectureRooms.RoomOf(lectureId))
    ensures var user := srv.users[conn];
            LectureRooms.LectureOpen(srv.store, lectureId, now)
            && LectureRooms.CourseOf(srv.store, lectureId).instructorId == user.id
            && user.id !in LectureRooms.CourseOf(srv.store, lectureId).students ==>
              && JoinLecture(srv.store, user, lectureId, now) == Refuse(403, "Not enrolled in course")
              && conn in LectureRooms.Members(LectureRooms.JoinLecture(srv, conn, lectureId, now).server.rooms,
                                              LectureRooms.RoomOf(lectureId))
  {
  }

  /** A lecture just created by its instructor is listed for them. */
  lemma CreatedLectureIsListed(s: Store, user: Payload, courseId: Id, title: string,
                               startTime: Option<int>, endTime: Option<int>, now: int, freshId: Id)
    requires freshId !in s.lectures
    requires CreateLecture(s, user, courseId, title, startTime, endTime, now, freshId).response.Reply?
    ensures var after := CreateLecture(s, user, courseId, title, startTime, endTime, now, freshId).store;
            var listed := ListLectures(after, user, courseId);
            listed.Reply? && freshId in listed.body
            && listed.body[freshId] == Lecture(courseId, title, startTime, endTime, now)
  {
  }
}

=== FILE: lecture_path.dfy ===
/** The lecture id the client's root component reads off the address bar
    (`frontend/src/index.jsx`), which scopes the socket connection to that lecture. */
module LecturePath {

  import opened Optional
  import opened Text
  import opened Seqs

  /** `pathname.split('/')`, then the segment after the first `lectures` segment, when there
      is one and it is not empty. */
  function LectureIdFromPath(path: string): (r: Option<string>)
    ensures "lectures" !in Split(path, '/') ==> r.None?
    ensures r.Some? ==> r.value != "" && '/' !in r.value
    ensures r.Some? ==> exists i :: 0 <= i < |Split(path, '/')| - 1
                                    && Split(path, '/')[i] == "lectures" && Split(path, '/')[i + 1] == r.value
  {
    var parts := Split(path, '/');
    match IndexOf(parts, "lectures")
    case None => None
    case Some(i) => if i + 1 < |parts| && parts[i + 1] != "" then Some(parts[i + 1]) else None
  }

  /** The path made of the given segments. */
  predicate Segments(parts: seq<string>) {
    forall i :: 0 <= i < |parts| ==> '/' !in parts[i]
  }

  /** Where `lectures` first occurs in a path built from `pre + ["lectures", next] + post`. */
  lemma {:induction false} FirstLecturesSegment(pre: seq<string>, next: string, post: seq<string>)
    requires Segments(pre + ["lectures", next] + post)
    requires "lectures" !in pre
    ensures var parts := pre + ["lectures", next] + post;
            Split(Join(parts, '/'), '/') == parts && IndexOf(parts, "lectures") == Some(|pre|)
  {
    var parts := pre + ["lectures", next] + post;
    SplitJoin(parts, '/');
    assert parts[|pre|] == "lectures";
  }

  /** The segment after the first `lectures` is the id, whatever follows it. */
  lemma LectureIdOfPath(pre: seq<string>, id: string, post: seq<string>)
    requires Segments(pre + ["lectures", id] + post)
    requires "lectures" !in pre
    requires id != ""
    ensures LectureIdFromPath(Join(pre + ["lectures", id] + post, '/')) == Some(id)
  {
    FirstLecturesSegment(pre, id, post);
  }

  /** A trailing slash after `lectures` (an empty next segment), or `lectures` as the last
      segment, gives no id, even if a later `lectures` segment would. */
  lemma NoIdAfterEmptySegment(pre: seq<string>, post: seq<string>)
    requires Segments(pre + ["lectures", ""] + post)
    requires "lectures" !in pre
    ensures LectureIdFromPath(Join(pre + ["lectures", ""] + post, '/')).None?
  {
    FirstLecturesSegment(pre, "", post);
  }

  lemma NoIdAtEnd(pre: seq<string>)
    requires Segments(pre + ["lectures"])
    requires "lectures" !in pre
    ensures LectureIdFromPath(Join(pre + ["lectures"], '/')).None?
  {
    var parts := pre + ["lectures"];
    SplitJoin(parts, '/');
    assert parts[|pre|] == "lectures";
  }

  /** For instance the lecture page's own address. */
  lemma LecturePageAddress(id: string)
    requires id != "" && '/' !in id
    ensures LectureIdFromPath("/lectures/" + id) == Some(id)
  {
    assert Join(["lectures", id], '/') == "lectures" + "/" + id by {
      assert ["lectures", id][1..] == [id];
    }
    assert Join(["", "lectures", id], '/') == "" + "/" + Join(["lectures", id], '/') by {
      assert ["", "lectures", id][1..] == ["lectures", id];
    }
    assert "/lectures/" + id == Join(["", "lectures", id], '/');
    assert [""] + ["lectures", id] + [] == ["", "lectures", id];
    LectureIdOfPath([""], id, []);
  }
}

=== FILE: lecture_rooms.dfy ===
/** The real-time lecture-room server of `src/socket.js`: the handshake check, room membership
    and the question handlers. Each handler is one atomic step from a server state to a new
    state plus the events it emits, each addressed to the requesting connection or to a room. */
module LectureRooms {

  import opened Optional
  import opened Text
  import opened Seqs
  import opened Records
  import opened Auth

  /** A socket's identifier. */
  type ConnId = string

  /** Room name to the set of connections in it (socket.io's adapter `rooms`). */
  type Rooms = map<string, set<ConnId>>

  /** The room of a lecture: `lecture:<lectureId>`. */
  function RoomOf(lectureId: Id): string {
    "lecture:" + lectureId
  }

  predicate IsLectureRoom(name: string) {
    StartsWith(name, "lecture:")
  }

  /** The members of a room; a room nobody is in has none (`rooms.get(name)?.size || 0`). */
  function Members(rooms: Rooms, name: string): set<ConnId> {
    if name in rooms then rooms[name] else {}
  }

  /** `socket.join(name)`. */
  function AddMember(rooms: Rooms, name: string, c: ConnId): (r: Rooms)
    ensures Members(r, name) == Members(rooms, name) + {c}
    ensures forall n :: n != name ==> Members(r, n) == Members(rooms, n)
  {
    rooms[name := Members(rooms, name) + {c}]
  }

  /** `socket.leave(name)`; leaving a room one is not in changes nothing. */
  function RemoveMember(rooms: Rooms, name: string, c: ConnId): (r: Rooms)
    ensures Members(r, name) == Members(rooms, name) - {c}
    ensures forall n :: n != name ==> Members(r, n) == Members(rooms, n)
    ensures c !in Members(rooms, name) ==> r == rooms
  {
    if name in rooms && c in rooms[name] then rooms[name := rooms[name] - {c}] else rooms
  }

  /** Server state: the entity store, the rooms, and the identity of every admitted connection. */
  datatype Server = Server(store: Store, rooms: Rooms, users: map<ConnId, Payload>)

  /** The outbound events. `ConnectError` is what a refused handshake sends back. */
  datatype Event =
    | ConnectError(message: string)
    | Error(message: string)
    | LectureData(lectureId: Id, lecture: Lecture, questions: seq<QuestionView>, participants: nat)
    | ParticipantCount(count: nat)
    | NewQuestion(question: QuestionView)
    | QuestionUpdated(question: QuestionView)
    | QuestionDeleted(questionId: Id)
    | QuestionsCleared(lectureId: Id)

  /** `socket.emit` goes to the requester; `io.to(room).emit` to the room's members. */
  datatype Audience = Requester | Room(name: string)

  datatype Emit = Emit(audience: Audience, event: Event)

  datatype Step = Step(server: Server, out: seq<Emit>)

  /** The connections an emission reaches, given the rooms as they are after the step. */
  function Recipients(e: Emit, requester: ConnId, rooms: Rooms): set<ConnId> {
    match e.audience
    case Requester => {requester}
    case Room(name) => Members(rooms, name)
  }

  /** The handler caught an exception: nothing changes and nothing is emitted. */
  predicate Silent(r: Step, srv: Server) {
    r == Step(srv, [])
  }

  /** The handler refused: only the requester hears why, and nothing changes. */
  predicate Refused(r: Step, srv: Server, message: string) {
    r == Step(srv, [Emit(Requester, Error(message))])
  }

  // ---------------------------------------------------------------------------------------
  // Handshake
  // ---------------------------------------------------------------------------------------

  datatype Handshake = Handshake(authToken: Option<string>, queryToken: Option<string>)

  /** `socket.handshake.auth?.token || socket.handshake.query.token`: an empty auth token is
      falsy and falls back to the query. */
  function HandshakeToken(h: Handshake): (t: Option<string>)
    ensures h.authToken.Some? && h.authToken.value != "" ==> t == h.authToken
    ensures h.authToken.None? || h.authToken == Some("") ==> t == h.queryToken
  {
    if h.authToken.Some? && h.authToken.value != "" then h.authToken else h.queryToken
  }

  /** The `io.use` middleware: a connection is admitted iff its token verifies, and then carries
      exactly the token's claims; otherwise the client gets "Auth error" and nothing changes. */
  function Connect(srv: Server, conn: ConnId, h: Handshake, verify: Verifier): (r: Step)
    requires conn !in srv.users
    ensures conn in r.server.users <==> VerifyJwt(verify, HandshakeToken(h)).Some?
    ensures conn in r.server.users ==>
              && Some(r.server.users[conn]) == VerifyJwt(verify, HandshakeToken(h))
              && r.server == srv.(users := srv.users[conn := r.server.users[conn]])
              && r.out == []
    ensures conn !in r.server.users ==> r == Step(srv, [Emit(Requester, ConnectError("Auth error"))])
  {
    match VerifyJwt(verify, HandshakeToken(h))
    case None => Step(srv, [Emit(Requester, ConnectError("Auth error"))])
    case Some(p) => Step(srv.(users := srv.users[conn := p]), [])
  }

  // ---------------------------------------------------------------------------------------
  // Authorisation rules
  // ---------------------------------------------------------------------------------------

  /** Who may join a lecture's room: an enrolled student or the course's instructor. */
  predicate MayJoin(user: Payload, c: Course) {
    user.id in c.students || c.instructorId == user.id
  }

  /** Who may ask: enrolled students only; being the instructor is not enough. */
  predicate MayAsk(user: Payload, c: Course) {
    user.id in c.students
  }

  /** Who may moderate: the course's instructor only. */
  predicate MayModerate(user: Payload, c: Course) {
    c.instructorId == user.id
  }

  /** The lecture exists, is ongoing, and its course exists. */
  predicate LectureOpen(s: Store, lectureId: Id, now: int) {
    && lectureId in s.lectures
    && IsOngoing(s.lectures[lectureId], now)
    && s.lectures[lectureId].course in s.courses
  }

  function CourseOf(s: Store, lectureId: Id): Course
    requires lectureId in s.lectures && s.lectures[lectureId].course in s.courses
  {
    s.courses[s.lectures[lectureId].course]
  }

  // ---------------------------------------------------------------------------------------
  // Membership
  // ---------------------------------------------------------------------------------------

  /** `joinLecture {lectureId}`. The lecture is dereferenced before its null check, so an
      unknown lecture throws into the catch and the requester hears nothing. */
  function JoinLecture(srv: Server, conn: ConnId, lectureId: Id, now: int): (r: Step)
    requires conn in srv.users
    ensures r.server.store == srv.store && r.server.users == srv.users
    ensures lectureId !in srv.store.lectures ==> Silent(r, srv)
    ensures lectureId in srv.store.lectures && !IsOngoing(srv.store.lectures[lectureId], now) ==>
              Refused(r, srv, "Lecture not ongoing")
    ensures lectureId in srv.store.lectures && IsOngoing(srv.store.lectures[lectureId], now)
            && srv.store.lectures[lectureId].course !in srv.store.courses ==>
              Refused(r, srv, "Course not found")
    ensures LectureOpen(srv.store, lectureId, now) && !MayJoin(srv.users[conn], CourseOf(srv.store, lectureId)) ==>
              Refused(r, srv, "Not enrolled in course")
    ensures conn in Members(r.server.rooms, RoomOf(lectureId)) <==>
              (conn in Members(srv.rooms, RoomOf(lectureId))
               || (LectureOpen(srv.store, lectureId, now) && MayJoin(srv.users[conn], CourseOf(srv.store, lectureId))))
    ensures LectureOpen(srv.store, lectureId, now) && MayJoin(srv.users[conn], CourseOf(srv.store, lectureId)) ==>
              var members := Members(r.server.rooms, RoomOf(lectureId));
              && r.server.rooms == AddMember(srv.rooms, RoomOf(lectureId), conn)
              && r.out == [ Emit(Requester, LectureData(lectureId, srv.store.lectures[lectureId],
                                                        PopulateAll(srv.store.users, LectureQuestions(srv.store.questions, lectureId)),
                                                        |members|)),
                            Emit(Room(RoomOf(lectureId)), ParticipantCount(|members|)) ]
  {
    var s := srv.store;
    var user := srv.users[conn];
    if lectureId !in s.lectures then Step(srv, [])
    else
      var lecture := s.lectures[lectureId];
      if !IsOngoing(lecture, now) then Step(srv, [Emit(Requester, Error("Lecture not ongoing"))])
      else if lecture.course !in s.courses then Step(srv, [Emit(Requester, Error("Course not found"))])
      else if !MayJoin(user, s.courses[lecture.course]) then Step(srv, [Emit(Requester, Error("Not enrolled in course"))])
      else
        var rooms := AddMember(srv.rooms, RoomOf(lectureId), conn);
        var count := |Members(rooms, RoomOf(lectureId))|;
        var questions := PopulateAll(s.users, LectureQuestions(s.questions, lectureId));
        Step(srv.(rooms := rooms),
             [Emit(Requester, LectureData(lectureId, lecture, questions, count)),
              Emit(Room(RoomOf(lectureId)), ParticipantCount(count))])
  }

  /** `leaveLecture {lectureId}`: no lecture lookup; the new size goes to those who remain. */
  function LeaveLecture(srv: Server, conn: ConnId, lectureId: Id): (r: Step)
    requires conn in srv.users
    ensures r.server.store == srv.store && r.server.users == srv.users
    ensures r.server.rooms == RemoveMember(srv.rooms, RoomOf(lectureId), conn)
    ensures conn !in Members(r.server.rooms, RoomOf(lectureId))
    ensures r.out == [Emit(Room(RoomOf(lectureId)), ParticipantCount(|Members(r.server.rooms, RoomOf(lectureId))|))]
  {
    var rooms := RemoveMember(srv.rooms, RoomOf(lectureId), conn);
    Step(srv.(rooms := rooms), [Emit(Room(RoomOf(lectureId)), ParticipantCount(|Members(rooms, RoomOf(lectureId))|))])
  }

  /** The `disconnecting` handler: leaves every `lecture:` room and broadcasts nothing. */
  function Disconnecting(srv: Server, conn: ConnId): (r: Step)
    requires conn in srv.users
    ensures r.server.store == srv.store && r.server.users == srv.users
    ensures forall n :: IsLectureRoom(n) ==> Members(r.server.rooms, n) == Members(srv.rooms, n) - {conn}
    ensures forall n :: !IsLectureRoom(n) ==> Members(r.server.rooms, n) == Members(srv.rooms, n)
    ensures r.out == []
  {
    var rooms := map n | n in srv.rooms :: if IsLectureRoom(n) then srv.rooms[n] - {conn} else srv.rooms[n];
    Step(srv.(rooms := rooms), [])
  }

  // ---------------------------------------------------------------------------------------
  // Asking
  // ---------------------------------------------------------------------------------------

  /** `askQuestion {lectureId, content}`. The content is stored as sent, untrimmed; the
      schema's `required` validator throws on an empty string, which the catch swallows. The
      store's fresh id for the new document is `freshId`. */
  function AskQuestion(srv: Server, conn: ConnId, lectureId: Id, content: string, now: int, freshId: Id): (r: Step)
    requires conn in srv.users
    requires FreshQuestionId(srv.store.questions, freshId)
    ensures r.server.rooms == srv.rooms && r.server.users == srv.users
    ensures lectureId !in srv.store.lectures ==> Silent(r, srv)
    ensures lectureId in srv.store.lectures && !IsOngoing(srv.store.lectures[lectureId], now) ==>
              Refused(r, srv, "Lecture not ongoing")
    ensures lectureId in srv.store.lectures && IsOngoing(srv.store.lectures[lectureId], now)
            && srv.store.lectures[lectureId].course !in srv.store.courses ==>
              Refused(r, srv, "Course not found")
    ensures LectureOpen(srv.store, lectureId, now) && !MayAsk(srv.users[conn], CourseOf(srv.store, lectureId)) ==>
              Refused(r, srv, "Not enrolled")
    ensures (LectureOpen(srv.store, lectureId, now) && MayAsk(srv.users[conn], CourseOf(srv.store, lectureId))
             && (content == "" || lectureId == "" || srv.users[conn].id == "")) ==> Silent(r, srv)
    ensures (LectureOpen(srv.store, lectureId, now) && MayAsk(srv.users[conn], CourseOf(srv.store, lectureId))
             && content != "" && lectureId != "" && srv.users[conn].id != "") ==>
              var q := Question(freshId, lectureId, srv.users[conn].id, content, now, Open, false);
              && r.server.store == srv.store.(questions := srv.store.questions + [q])
              && r.out == [Emit(Room(RoomOf(lectureId)), NewQuestion(Populate(srv.store.users, q)))]
    ensures r.server.store != srv.store ==> |r.server.store.questions| == |srv.store.questions| + 1
  {
    var s := srv.store;
    var user := srv.users[conn];
    if lectureId !in s.lectures then Step(srv, [])
    else
      var lecture := s.lectures[lectureId];
      if !IsOngoing(lecture, now) then Step(srv, [Emit(Requester, Error("Lecture not ongoing"))])
      else if lecture.course !in s.courses then Step(srv, [Emit(Requester, Error("Course not found"))])
      else if !MayAsk(user, s.courses[lecture.course]) then Step(srv, [Emit(Requester, Error("Not enrolled"))])
      else
        match CreateQuestion(freshId, lectureId, user.id, content, now)
        case None => Step(srv, [])
        case Some(q) =>
          Step(srv.(store := s.(questions := s.questions + [q])),
               [Emit(Room(RoomOf(lectureId)), NewQuestion(Populate(s.users, q)))])
  }

  // ---------------------------------------------------------------------------------------
  // Moderation
  // ---------------------------------------------------------------------------------------

  /** The outcome of the moderation handlers' common lookups. */
  datatype Check = Allowed(q: Question) | Denied(message: string)

  /** Question, then its lecture, then the course, then `instructorId == user.id`. There is no
      time-window check. */
  function CheckModerator(s: Store, user: Payload, questionId: Id): (c: Check)
    ensures FindQuestion(s.questions, questionId).None? ==> c == Denied("Question not found")
    ensures c.Allowed? <==>
              && FindQuestion(s.questions, questionId).Some?
              && var q := FindQuestion(s.questions, questionId).value;
              && q.lecture in s.lectures
              && s.lectures[q.lecture].course in s.courses
              && MayModerate(user, CourseOf(s, q.lecture))
    ensures c.Allowed? ==> Some(c.q) == FindQuestion(s.questions, questionId) && c.q in s.questions && c.q.id == questionId
    ensures FindQuestion(s.questions, questionId).Some? ==>
              var q := FindQuestion(s.questions, questionId).value;
              && (q.lecture !in s.lectures ==> c == Denied("Lecture not found"))
              && (q.lecture in s.lectures && s.lectures[q.lecture].course !in s.courses ==> c == Denied("Course not found"))
              && ((q.lecture in s.lectures && s.lectures[q.lecture].course in s.courses
                   && !MayModerate(user, CourseOf(s, q.lecture))) ==> c == Denied("Not instructor"))
    ensures c.Denied? ==> c.message in {"Question not found", "Lecture not found", "Course not found", "Not instructor"}
  {
    match FindQuestion(s.questions, questionId)
    case None => Denied("Question not found")
    case Some(q) =>
      if q.lecture !in s.lectures then Denied("Lecture not found")
      else if s.lectures[q.lecture].course !in s.courses then Denied("Course not found")
      else if !MayModerate(user, s.courses[s.lectures[q.lecture].course]) then Denied("Not instructor")
      else Allowed(q)
  }

  /** Save a moderated question and tell its lecture's room. */
  function Publish(srv: Server, q: Question): (r: Step)
    ensures r.server == srv.(store := srv.store.(questions := SaveQuestion(srv.store.questions, q)))
    ensures r.out == [Emit(Room(RoomOf(q.lecture)), QuestionUpdated(Populate(srv.store.users, q)))]
  {
    Step(srv.(store := srv.store.(questions := SaveQuestion(srv.store.questions, q))),
         [Emit(Room(RoomOf(q.lecture)), QuestionUpdated(Populate(srv.store.users, q)))])
  }

  /** `toggleImportant {questionId, isImportant}`: sets the supplied value rather than flipping. */
  function ToggleImportant(srv: Server, conn: ConnId, questionId: Id, isImportant: bool): (r: Step)
    requires conn in srv.users
    ensures r.server.rooms == srv.rooms && r.server.users == srv.users
    ensures CheckModerator(srv.store, srv.users[conn], questionId).Denied? ==>
              Refused(r, srv, CheckModerator(srv.store, srv.users[conn], questionId).message)
    ensures CheckModerator(srv.store, srv.users[conn], questionId).Allowed? ==>
              var q := CheckModerator(srv.store, srv.users[conn], questionId).q;
              r == Publish(srv, q.(isImportant := isImportant))
  {
    match CheckModerator(srv.store, srv.users[conn], questionId)
    case Denied(m) => Step(srv, [Emit(Requester, Error(m))])
    case Allowed(q) => Publish(srv, q.(isImportant := isImportant))
  }

  /** `updateQuestionStatus {questionId, status}`: a status outside the enumeration fails the
      schema validation on save, which the catch swallows. */
  function UpdateQuestionStatus(srv: Server, conn: ConnId, questionId: Id, status: string): (r: Step)
    requires conn in srv.users
    ensures r.server.rooms == srv.rooms && r.server.users == srv.users
    ensures CheckModerator(srv.store, srv.users[conn], questionId).Denied? ==>
              Refused(r, srv, CheckModerator(srv.store, srv.users[conn], questionId).message)
    ensures CheckModerator(srv.store, srv.users[conn], questionId).Allowed? ==>
              var q := CheckModerator(srv.store, srv.users[conn], questionId).q;
              && (ParseStatus(status).None? ==> Silent(r, srv))
              && (ParseStatus(status).Some? ==> r == Publish(srv, q.(status := ParseStatus(status).value)))
  {
    match CheckModerator(srv.store, srv.users[conn], questionId)
    case Denied(m) => Step(srv, [Emit(Requester, Error(m))])
    case Allowed(q) =>
      match ParseStatus(status)
      case None => Step(srv, [])
      case Some(st) => Publish(srv, q.(status := st))
  }

  /** The `updates` object of `updateQuestion`: `status` is applied only when truthy (the empty
      string stands for a missing one), `isImportant` only when defined. */
  datatype Updates = Updates(status: string, isImportant: Option<bool>)

  /** The question with the supplied fields applied and every other field kept. */
  function Updated(q: Question, updates: Updates): (q': Question)
    ensures q'.id == q.id && q'.lecture == q.lecture && q'.askedBy == q.askedBy
    ensures q'.content == q.content && q'.timestamp == q.timestamp
    ensures updates.status == "" ==> q'.status == q.status
    ensures ParseStatus(updates.status).Some? ==> q'.status == ParseStatus(updates.status).value
    ensures updates.isImportant.None? ==> q'.isImportant == q.isImportant
    ensures updates.isImportant.Some? ==> q'.isImportant == updates.isImportant.value
  {
    var st := ParseStatus(updates.status);
    q.(status := if st.Some? then st.value else q.status, isImportant := updates.isImportant.GetOr(q.isImportant))
  }

  /** `updateQuestion {questionId, updates}`. */
  function UpdateQuestion(srv: Server, conn: ConnId, questionId: Id, updates: Updates): (r: Step)
    requires conn in srv.users
    ensures r.server.rooms == srv.rooms && r.server.users == srv.users
    ensures CheckModerator(srv.store, srv.users[conn], questionId).Denied? ==>
              Refused(r, srv, CheckModerator(srv.store, srv.users[conn], questionId).message)
    ensures CheckModerator(srv.store, srv.users[conn], questionId).Allowed? ==>
              var q := CheckModerator(srv.store, srv.users[conn], questionId).q;
              if updates.status != "" && ParseStatus(updates.status).None? then Silent(r, srv)
              else r == Publish(srv, Updated(q, updates))
  {
    match CheckModerator(srv.store, srv.users[conn], questionId)
    case Denied(m) => Step(srv, [Emit(Requester, Error(m))])
    case Allowed(q) =>
      if updates.status != "" && ParseStatus(updates.status).None? then Step(srv, [])
      else Publish(srv, Updated(q, updates))
  }

  /** `deleteQuestion {questionId}`: removes that question only, and tells its lecture's room. */
  function DeleteQuestionStep(srv: Server, conn: ConnId, questionId: Id): (r: Step)
    requires conn in srv.users
    ensures r.server.rooms == srv.rooms && r.server.users == srv.users
    ensures CheckModerator(srv.store, srv.users[conn], questionId).Denied? ==>
              Refused(r, srv, CheckModerator(srv.store, srv.users[conn], questionId).message)
    ensures CheckModerator(srv.store, srv.users[conn], questionId).Allowed? ==>
              var q := CheckModerator(srv.store, srv.users[conn], questionId).q;
              && (forall x :: x in r.server.store.questions <==> x in srv.store.questions && x.id != questionId)
              && IsSubsequence(r.server.store.questions, srv.store.questions)
              && r.server.store == srv.store.(questions := r.server.store.questions)
              && r.out == [Emit(Room(RoomOf(q.lecture)), QuestionDeleted(questionId))]
  {
    match CheckModerator(srv.store, srv.users[conn], questionId)
    case Denied(m) => Step(srv, [Emit(Requester, Error(m))])
    case Allowed(q) =>
      Step(srv.(store := srv.store.(questions := DeleteQuestion(srv.store.questions, questionId))),
           [Emit(Room(RoomOf(q.lecture)), QuestionDeleted(questionId))])
  }

  /** `clearQuestions {lectureId}`: lecture, course, instructor; then removes exactly that
      lecture's questions and tells its room. */
  function ClearQuestions(srv: Server, conn: ConnId, lectureId: Id): (r: Step)
    requires conn in srv.users
    ensures r.server.rooms == srv.rooms && r.server.users == srv.users
    ensures lectureId !in srv.store.lectures ==> Refused(r, srv, "Lecture not found")
    ensures lectureId in srv.store.lectures && srv.store.lectures[lectureId].course !in srv.store.courses ==>
              Refused(r, srv, "Course not found")
    ensures lectureId in srv.store.lectures && srv.store.lectures[lectureId].course in srv.store.courses ==>
              if !MayModerate(srv.users[conn], CourseOf(srv.store, lectureId)) then
                Refused(r, srv, "Not instructor")
              else
                && (forall x :: x in r.server.store.questions <==> x in srv.store.questions && x.lecture != lectureId)
                && IsSubsequence(r.server.store.questions, srv.store.questions)
                && r.server.store == srv.store.(questions := r.server.store.questions)
                && r.out == [Emit(Room(RoomOf(lectureId)), QuestionsCleared(lectureId))]
  {
    var s := srv.store;
    if lectureId !in s.lectures then Step(srv, [Emit(Requester, Error("Lecture not found"))])
    else if s.lectures[lectureId].course !in s.courses then Step(srv, [Emit(Requester, Error("Course not found"))])
    else if !MayModerate(srv.users[conn], s.courses[s.lectures[lectureId].course]) then
      Step(srv, [Emit(Requester, Error("Not instructor"))])
    else
      Step(srv.(store := s.(questions := DeleteLectureQuestions(s.questions, lectureId))),
           [Emit(Room(RoomOf(lectureId)), QuestionsCleared(lectureId))])
  }

  // ---------------------------------------------------------------------------------------
  // Dispatch and properties across handlers
  // ---------------------------------------------------------------------------------------

  /** The inbound events of an admitted connection. */
  datatype Request =
    | Join(lectureId: Id)
    | Leave(lectureId: Id)
    | Ask(lectureId: Id, content: string)
    | SetImportant(questionId: Id, isImportant: bool)
    | SetStatus(questionId: Id, status: string)
    | Update(questionId: Id, updates: Updates)
    | Delete(questionId: Id)
    | Clear(lectureId: Id)
    | Disconnect

  function Handle(srv: Server, conn: ConnId, req: Request, now: int, freshId: Id): Step
    requires conn in srv.users
    requires FreshQuestionId(srv.store.questions, freshId)
  {
    match req
    case Join(l) => JoinLecture(srv, conn, l, now)
    case Leave(l) => LeaveLecture(srv, conn, l)
    case Ask(l, content) => AskQuestion(srv, conn, l, content, now, freshId)
    case SetImportant(q, v) => ToggleImportant(srv, conn, q, v)
    case SetStatus(q, st) => UpdateQuestionStatus(srv, conn, q, st)
    case Update(q, u) => UpdateQuestion(srv, conn, q, u)
    case Delete(q) => DeleteQuestionStep(srv, conn, q)
    case Clear(l) => ClearQuestions(srv, conn, l)
    case Disconnect => Disconnecting(srv, conn)
  }

  /** Every failure is told to the requester alone and changes nothing: an error event is never
      addressed to a room, and a step that emits one leaves the server as it was. */
  lemma ErrorsReachOnlyTheRequester(srv: Server, conn: ConnId, req: Request, now: int, freshId: Id)
    requires conn in srv.users
    requires FreshQuestionId(srv.store.questions, freshId)
    ensures var r := Handle(srv, conn, req, now, freshId);
            forall i :: 0 <= i < |r.out| && r.out[i].event.Error? ==>
              && r.out[i].audience == Requester
              && Recipients(r.out[i], conn, r.server.rooms) == {conn}
              && r.server == srv
              && |r.out| == 1
  {
    if req.Join? {
      ErrorsOfJoin(srv, conn, req.lectureId, now);
    } else if req.Leave? || req.Disconnect? {
      ErrorsOfLeave(srv, conn, req, now, freshId);
    } else if req.Ask? {
      ErrorsOfAsk(srv, conn, req, now, freshId);
    } else if req.SetImportant? || req.SetStatus? {
      ErrorsOfFlags(srv, conn, req, now, freshId);
    } else {
      ErrorsOfEdits(srv, conn, req, now, freshId);
    }
  }

  /** Every error event of a step is addressed to the requester alone, and a step that emits one
      emits nothing else and changes nothing. */
  predicate ErrorsOnlyToRequester(r: Step, srv: Server, conn: ConnId) {
    forall i :: 0 <= i < |r.out| && r.out[i].event.Error? ==>
      && r.out[i].audience == Requester
      && Recipients(r.out[i], conn, r.server.rooms) == {conn}
      && r.server == srv
      && |r.out| == 1
  }

  /** `ErrorsReachOnlyTheRequester` for joining. */
  lemma ErrorsOfJoin(srv: Server, conn: ConnId, lectureId: Id, now: int)
    requires conn in srv.users
    ensures ErrorsOnlyToRequester(JoinLecture(srv, conn, lectureId, now), srv, conn)
  {
    var r := JoinLecture(srv, conn, lectureId, now);
    if LectureOpen(srv.store, lectureId, now) && MayJoin(srv.users[conn], CourseOf(srv.store, lectureId)) {
      assert !r.out[0].event.Error? && !r.out[1].event.Error?;
    } else {
      assert r.server == srv && |r.out| <= 1 && (|r.out| == 1 ==> r.out[0].audience == Requester);
    }
  }

  /** `ErrorsReachOnlyTheRequester` for leaving and disconnecting. */
  lemma ErrorsOfLeave(srv: Server, conn: ConnId, req: Request, now: int, freshId: Id)
    requires conn in srv.users
    requires FreshQuestionId(srv.store.questions, freshId)
    requires req.Leave? || req.Disconnect?
    ensures ErrorsOnlyToRequester(Handle(srv, conn, req, now, freshId), srv, conn)
  {
  }

  /** `ErrorsReachOnlyTheRequester` for asking a question. */
  lemma ErrorsOfAsk(srv: Server, conn: ConnId, req: Request, now: int, freshId: Id)
    requires conn in srv.users
    requires FreshQuestionId(srv.store.questions, freshId)
    requires req.Ask?
    ensures ErrorsOnlyToRequester(Handle(srv, conn, req, now, freshId), srv, conn)
  {
  }

  /** `ErrorsReachOnlyTheRequester` for the importance flag and the status. */
  lemma ErrorsOfFlags(srv: Server, conn: ConnId, req: Request, now: int, freshId: Id)
    requires conn in srv.users
    requires FreshQuestionId(srv.store.questions, freshId)
    requires req.SetImportant? || req.SetStatus?
    ensures ErrorsOnlyToRequester(Handle(srv, conn, req, now, freshId), srv, conn)
  {
  }

  /** `ErrorsReachOnlyTheRequester` for editing, deleting and clearing. */
  lemma ErrorsOfEdits(srv: Server, conn: ConnId, req: Request, now: int, freshId: Id)
    requires conn in srv.users
    requires FreshQuestionId(srv.store.questions, freshId)
    requires req.Update? || req.Delete? || req.Clear?
    ensures ErrorsOnlyToRequester(Handle(srv, conn, req, now, freshId), srv, conn)
  {
  }

  /** Membership handlers leave the store alone, and question handlers leave the rooms alone. */
  lemma HandlersTouchTheirOwnState(srv: Server, conn: ConnId, req: Request, now: int, freshId: Id)
    requires conn in srv.users
    requires FreshQuestionId(srv.store.questions, freshId)
    ensures var r := Handle(srv, conn, req, now, freshId);
            && r.server.users == srv.users
            && (req.Join? || req.Leave? || req.Disconnect? ==> r.server.store == srv.store)
            && (!(req.Join? || req.Leave? || req.Disconnect?) ==> r.server.rooms == srv.rooms)
  {
  }

  /** Every handler keeps the store's uniqueness guarantees. */
  lemma {:induction false} HandlePreservesValid(srv: Server, conn: ConnId, req: Request, now: int, freshId: Id)
    requires conn in srv.users
    requires FreshQuestionId(srv.store.questions, freshId)
    requires Valid(srv.store)
    ensures Valid(Handle(srv, conn, req, now, freshId).server.store)
  {
    match req
    case Join(_) => HandlersTouchTheirOwnState(srv, conn, req, now, freshId);
    case Leave(_) => HandlersTouchTheirOwnState(srv, conn, req, now, freshId);
    case Disconnect => HandlersTouchTheirOwnState(srv, conn, req, now, freshId);
    case Ask(l, content) => AskKeepsValid(srv, conn, l, content, now, freshId);
    case SetImportant(id, v) => ToggleKeepsValid(srv, conn, id, v);
    case SetStatus(id, st) => StatusKeepsValid(srv, conn, id, st);
    case Update(id, u) => EditKeepsValid(srv, conn, id, u);
    case Delete(id) => DeleteKeepsValid(srv, conn, id);
    case Clear(l) => ClearKeepsValid(srv, conn, l);
  }

  /** `HandlePreservesValid` for asking: the new question's id is fresh. */
  lemma AskKeepsValid(srv: Server, conn: ConnId, lectureId: Id, content: string, now: int, freshId: Id)
    requires conn in srv.users
    requires FreshQuestionId(srv.store.questions, freshId)
    requires Valid(srv.store)
    ensures Valid(AskQuestion(srv, conn, lectureId, content, now, freshId).server.store)
  {
    var s := srv.store;
    var r := AskQuestion(srv, conn, lectureId, content, now, freshId);
    if r.server.store != s {
      var q := r.server.store.questions[|s.questions|];
      assert r.server.store.questions == s.questions + [q];
      AppendFreshQuestion(s.questions, q);
    }
  }

  /** `HandlePreservesValid` for the importance flag: a save replaces a question in place. */
  lemma ToggleKeepsValid(srv: Server, conn: ConnId, questionId: Id, isImportant: bool)
    requires conn in srv.users
    requires Valid(srv.store)
    ensures Valid(ToggleImportant(srv, conn, questionId, isImportant).server.store)
  {
    var c := CheckModerator(srv.store, srv.users[conn], questionId);
    if c.Allowed? {
      SaveKeepsIdsDistinct(srv.store.questions, c.q.(isImportant := isImportant));
    }
  }

  /** `HandlePreservesValid` for the status. */
  lemma StatusKeepsValid(srv: Server, conn: ConnId, questionId: Id, status: string)
    requires conn in srv.users
    requires Valid(srv.store)
    ensures Valid(UpdateQuestionStatus(srv, conn, questionId, status).server.store)
  {
    var c := CheckModerator(srv.store, srv.users[conn], questionId);
    if c.Allowed? && ParseStatus(status).Some? {
      SaveKeepsIdsDistinct(srv.store.questions, c.q.(status := ParseStatus(status).value));
    }
  }

  /** `HandlePreservesValid` for editing. */
  lemma EditKeepsValid(srv: Server, conn: ConnId, questionId: Id, updates: Updates)
    requires conn in srv.users
    requires Valid(srv.store)
    ensures Valid(UpdateQuestion(srv, conn, questionId, updates).server.store)
  {
    var c := CheckModerator(srv.store, srv.users[conn], questionId);
    if c.Allowed? {
      SaveKeepsIdsDistinct(srv.store.questions, Updated(c.q, updates));
    }
  }

  /** `HandlePreservesValid` for deleting: what remains is a subsequence. */
  lemma DeleteKeepsValid(srv: Server, conn: ConnId, questionId: Id)
    requires conn in srv.users
    requires Valid(srv.store)
    ensures Valid(DeleteQuestionStep(srv, conn, questionId).server.store)
  {
    SubsequenceKeepsIdsDistinct(DeleteQuestion(srv.store.questions, questionId), srv.store.questions);
  }

  /** `HandlePreservesValid` for clearing a lecture: what remains is a subsequence. */
  lemma ClearKeepsValid(srv: Server, conn: ConnId, lectureId: Id)
    requires conn in srv.users
    requires Valid(srv.store)
    ensures Valid(ClearQuestions(srv, conn, lectureId).server.store)
  {
    SubsequenceKeepsIdsDistinct(DeleteLectureQuestions(srv.store.questions, lectureId), srv.store.questions);
  }

  /** Rooms are sets: joining again changes no membership and reports the same count. */
  lemma RepeatedJoinCountsOnce(srv: Server, conn: ConnId, lectureId: Id, now: int)
    requires conn in srv.users
    requires LectureOpen(srv.store, lectureId, now) && MayJoin(srv.users[conn], CourseOf(srv.store, lectureId))
    ensures var first := JoinLecture(srv, conn, lectureId, now);
            var second := JoinLecture(first.server, conn, lectureId, now);
            && second.server == first.server
            && second.out[1] == first.out[1]
            && first.out[1].event.count == |Members(srv.rooms, RoomOf(lectureId)) + {conn}|
  {
    var first := JoinLecture(srv, conn, lectureId, now);
    assert Members(first.server.rooms, RoomOf(lectureId)) + {conn} == Members(first.server.rooms, RoomOf(lectureId));
  }

  /** After a successful join the joiner alone gets the snapshot, and the count reaches every
      member, the joiner included. */
  lemma JoinAddressesSnapshotAndCount(srv: Server, conn: ConnId, lectureId: Id, now: int)
    requires conn in srv.users
    requires LectureOpen(srv.store, lectureId, now) && MayJoin(srv.users[conn], CourseOf(srv.store, lectureId))
    ensures var r := JoinLecture(srv, conn, lectureId, now);
            && Recipients(r.out[0], conn, r.server.rooms) == {conn}
            && Recipients(r.out[1], conn, r.server.rooms) == Members(srv.rooms, RoomOf(lectureId)) + {conn}
            && r.out[1].event.count == |Recipients(r.out[1], conn, r.server.rooms)|
  {
  }

  /** A disconnect drops a member of a lecture room by exactly one, and tells nobody. */
  lemma DisconnectDropsOneSilently(srv: Server, conn: ConnId, lectureId: Id)
    requires conn in srv.users
    requires conn in Members(srv.rooms, RoomOf(lectureId))
    ensures var r := Disconnecting(srv, conn);
            && |Members(r.server.rooms, RoomOf(lectureId))| == |Members(srv.rooms, RoomOf(lectureId))| - 1
            && r.out == []
  {
    var r := Disconnecting(srv, conn);
    assert IsLectureRoom(RoomOf(lectureId)) by {
      assert RoomOf(lectureId)[..|"lecture:"|] == "lecture:";
    }
    assert Members(r.server.rooms, RoomOf(lectureId)) == Members(srv.rooms, RoomOf(lectureId)) - {conn};
  }

  /** The instructor supplies the value rather than flipping it: setting a question back to its
      previous importance restores the store exactly. */
  lemma {:induction false} SetImportantRoundTrip(srv: Server, conn: ConnId, questionId: Id, isImportant: bool)
    requires conn in srv.users
    requires Valid(srv.store)
    requires CheckModerator(srv.store, srv.users[conn], questionId).Allowed?
    ensures var q := CheckModerator(srv.store, srv.users[conn], questionId).q;
            var first := ToggleImportant(srv, conn, questionId, isImportant);
            ToggleImportant(first.server, conn, questionId, q.isImportant).server == srv
  {
    var s := srv.store;
    var q := CheckModerator(s, srv.users[conn], questionId).q;
    var q1 := q.(isImportant := isImportant);
    FindAfterSave(s.questions, q1);
    SaveTwice(s.questions, q1, q);
    SaveStoredIsNoop(s.questions, q);
  }

  /** An update carrying neither field (the front end sends `{answered: true}`, which the server
      does not know) leaves the store as it was yet still tells the room the question changed. */
  lemma EmptyUpdateStillBroadcasts(srv: Server, conn: ConnId, questionId: Id)
    requires conn in srv.users
    requires Valid(srv.store)
    requires CheckModerator(srv.store, srv.users[conn], questionId).Allowed?
    ensures var q := CheckModerator(srv.store, srv.users[conn], questionId).q;
            var r := UpdateQuestion(srv, conn, questionId, Updates("", None));
            && r.server == srv
            && r.out == [Emit(Room(RoomOf(q.lecture)), QuestionUpdated(Populate(srv.store.users, q)))]
  {
    var q := CheckModerator(srv.store, srv.users[conn], questionId).q;
    assert Updated(q, Updates("", None)) == q;
    SaveStoredIsNoop(srv.store.questions, q);
  }
}

=== FILE: optional.dfy ===
/** The absent-or-present value used wherever the source has `null`/`undefined`. */
module Optional {

  datatype Option<+T> = None | Some(value: T) {

    /** The value, or `default` when absent (JavaScript's `x || default` on a present, truthy x). */
    function GetOr(default: T): T {
      match this
      case Some(v) => v
      case None => default
    }
  }
}

=== FILE: question_api.dfy ===
/** The REST question handlers of `src/controllers/questionController.js`. All routes sit behind
    `requireAuth`, so each handler receives the verified claims of the caller. */
module QuestionApi {

  import opened Optional
  import opened Text
  import opened Seqs
  import opened Records
  import opened Auth
  import opened Http

  // ---------------------------------------------------------------------------------------
  // Posting
  // ---------------------------------------------------------------------------------------

  /** `POST /:lectureId/questions {content}` at time `now`; `freshId` is the id the store gives
      the new document. Blank content is refused before any lookup, and what is stored is the
      trimmed content. The "not ongoing" reply formats both dates with `toISOString`, which throws
      on the invalid date of a missing bound, so that refusal is a 400 only when both bounds are
      set and the catch's 500 otherwise. */
  function PostQuestion(s: Store, user: Payload, lectureId: Id, content: string, now: int, freshId: Id)
    : (h: Handled<QuestionView>)
    requires FreshQuestionId(s.questions, freshId)
    ensures IsBlank(content) ==> h == Handled(Refuse(400, "Question content is required"), s)
    ensures !IsBlank(content) && lectureId !in s.lectures ==> h == Handled(Refuse(404, "Lecture not found"), s)
    ensures !IsBlank(content) && lectureId in s.lectures && !IsOngoing(s.lectures[lectureId], now) ==>
              var l := s.lectures[lectureId];
              h == Handled(if l.startTime.Some? && l.endTime.Some? then Refuse(400, "Lecture not ongoing")
                           else ServerError(), s)
    ensures !IsBlank(content) && lectureId in s.lectures && IsOngoing(s.lectures[lectureId], now)
            && s.lectures[lectureId].course !in s.courses ==>
              h == Handled(Refuse(404, "Course not found"), s)
    ensures !IsBlank(content) && lectureId in s.lectures && IsOngoing(s.lectures[lectureId], now)
            && s.lectures[lectureId].course in s.courses
            && user.id !in s.courses[s.lectures[lectureId].course].students ==>
              h == Handled(Refuse(403, "Not enrolled in this course"), s)
    ensures !IsBlank(content) && lectureId in s.lectures && IsOngoing(s.lectures[lectureId], now)
            && s.lectures[lectureId].course in s.courses
            && user.id in s.courses[s.lectures[lectureId].course].students
            && CreateQuestion(freshId, lectureId, user.id, Trim(content), now).None? ==>
              h == Handled(ServerError(), s)
    ensures h.response.Reply? <==>
              && !IsBlank(content) && lectureId != "" && user.id != ""
              && lectureId in s.lectures && IsOngoing(s.lectures[lectureId], now)
              && s.lectures[lectureId].course in s.courses
              && user.id in s.courses[s.lectures[lectureId].course].students
    ensures h.response.Reply? ==>
              var q := Question(freshId, lectureId, user.id, Trim(content), now, Open, false);
              && h.response == Reply(201, Populate(s.users, q))
              && h.store == s.(questions := s.questions + [q])
    ensures !h.response.Reply? ==> h.store == s
  {
    if IsBlank(content) then Handled(Refuse(400, "Question content is required"), s)
    else if lectureId !in s.lectures then Handled(Refuse(404, "Lecture not found"), s)
    else
      var l := s.lectures[lectureId];
      if !IsOngoing(l, now) then
        if l.startTime.Some? && l.endTime.Some? then Handled(Refuse(400, "Lecture not ongoing"), s)
        else Handled(ServerError(), s)
      else if l.course !in s.courses then Handled(Refuse(404, "Course not found"), s)
      else if user.id !in s.courses[l.course].students then Handled(Refuse(403, "Not enrolled in this course"), s)
      else
        match CreateQuestion(freshId, lectureId, user.id, Trim(content), now)
        case None => Handled(ServerError(), s)
        case Some(q) => Handled(Reply(201, Populate(s.users, q)), s.(questions := s.questions + [q]))
  }

  // ---------------------------------------------------------------------------------------
  // Listing, newest first
  // ---------------------------------------------------------------------------------------

  /** `.sort("-timestamp")`: no question precedes a newer one. */
  predicate NewestFirst(qs: seq<Question>) {
    forall i, j :: 0 <= i < j < |qs| ==> qs[i].timestamp >= qs[j].timestamp
  }

  /** Prepending a question no older than the head keeps a list newest-first. */
  lemma PrependNewest(x: Question, qs: seq<Question>)
    requires NewestFirst(qs)
    requires |qs| > 0 ==> x.timestamp >= qs[0].timestamp
    ensures NewestFirst([x] + qs)
  {
    var r := [x] + qs;
    forall i, j | 0 <= i < j < |r|
      ensures r[i].timestamp >= r[j].timestamp
    {
      if i == 0 && j > 1 {
        assert qs[0].timestamp >= qs[j - 1].timestamp;
      }
    }
  }

  /** Insert into a newest-first list, before any question of the same time. */
  function Insert(q: Question, qs: seq<Question>): (r: seq<Question>)
    requires NewestFirst(qs)
    ensures NewestFirst(r)
    ensures multiset(r) == multiset(qs) + multiset{q}
    ensures |r| == |qs| + 1
    ensures r[0] == q || (|qs| > 0 && r[0] == qs[0])
  {
    if |qs| == 0 || q.timestamp >= qs[0].timestamp then
      PrependNewest(q, qs);
      [q] + qs
    else
      var rest := Insert(q, qs[1..]);
      PrependNewest(qs[0], rest);
      assert qs == [qs[0]] + qs[1..];
      [qs[0]] + rest
  }

  /** The lecture's questions newest first; questions of equal time keep their stored order. */
  function SortNewestFirst(qs: seq<Question>): (r: seq<Question>)
    ensures NewestFirst(r)
    ensures multiset(r) == multiset(qs)
    ensures |r| == |qs|
  {
    if |qs| == 0 then []
    else
      assert qs == [qs[0]] + qs[1..];
      Insert(qs[0], SortNewestFirst(qs[1..]))
  }

  /** `GET /:lectureId/questions`: exactly the lecture's questions, each once, newest first, with
      their authors populated. */
  function ListQuestions(s: Store, lectureId: Id): (h: Handled<seq<QuestionView>>)
    ensures h.store == s && h.response.Reply? && h.response.code == 200
    ensures var vs := h.response.body;
            && (forall i :: 0 <= i < |vs| ==> vs[i] == Populate(s.users, vs[i].question))
            && multiset(QuestionsOf(vs)) == multiset(LectureQuestions(s.questions, lectureId))
            && (forall i, j :: 0 <= i < j < |vs| ==> vs[i].question.timestamp >= vs[j].question.timestamp)
  {
    var sorted := SortNewestFirst(LectureQuestions(s.questions, lectureId));
    var vs := PopulateAll(s.users, sorted);
    PopulateAllKeepsQuestions(s.users, sorted);
    Handled(Reply(200, vs), s)
  }

  // ---------------------------------------------------------------------------------------
  // Changing a question
  // ---------------------------------------------------------------------------------------

  /** The common shape of `markImportant` and `unmarkImportant`: find, set, save, answer with the
      saved document (not populated). Anyone signed in may do it. */
  function SetImportance(s: Store, questionId: Id, value: bool): (h: Handled<Question>)
    ensures FindQuestion(s.questions, questionId).None? ==> h == Handled(Refuse(404, "Not found"), s)
    ensures FindQuestion(s.questions, questionId).Some? ==>
              var q := FindQuestion(s.questions, questionId).value.(isImportant := value);
              h == Handled(Reply(200, q), s.(questions := SaveQuestion(s.questions, q)))
  {
    match FindQuestion(s.questions, questionId)
    case None => Handled(Refuse(404, "Not found"), s)
    case Some(q) =>
      var q' := q.(isImportant := value);
      Handled(Reply(200, q'), s.(questions := SaveQuestion(s.questions, q')))
  }

  /** `PATCH /question/important/:questionId`. */
  function MarkImportant(s: Store, questionId: Id): (h: Handled<Question>)
    ensures h.response.Reply? <==> FindQuestion(s.questions, questionId).Some?
    ensures h.response.Reply? ==> h.response.body.isImportant && h.response.body.id == questionId
    ensures h.response.Reply? ==>
              && h.response.body == FindQuestion(s.questions, questionId).value.(isImportant := true)
              && h.store == s.(questions := SaveQuestion(s.questions, h.response.body))
    ensures !h.response.Reply? ==> h == Handled(Refuse(404, "Not found"), s)
  {
    SetImportance(s, questionId, true)
  }

  /** `PATCH /question/unimportant/:questionId`. */
  function UnmarkImportant(s: Store, questionId: Id): (h: Handled<Question>)
    ensures h.response.Reply? <==> FindQuestion(s.questions, questionId).Some?
    ensures h.response.Reply? ==> !h.response.body.isImportant && h.response.body.id == questionId
    ensures h.response.Reply? ==>
              && h.response.body == FindQuestion(s.questions, questionId).value.(isImportant := false)
              && h.store == s.(questions := SaveQuestion(s.questions, h.response.body))
    ensures !h.response.Reply? ==> h == Handled(Refuse(404, "Not found"), s)
  {
    SetImportance(s, questionId, false)
  }

  /** `PATCH /question/:questionId {status}`: a truthy status is assigned (the empty string stands
      for a missing one). A status outside the enumeration makes `save` reject, and with no catch
      in the handler the request is never answered. */
  function UpdateQuestion(s: Store, questionId: Id, status: string): (h: Handled<Question>)
    ensures FindQuestion(s.questions, questionId).None? ==> h == Handled(Refuse(404, "Not found"), s)
    ensures FindQuestion(s.questions, questionId).Some? ==>
              var q := FindQuestion(s.questions, questionId).value;
              && (status == "" ==> h == Handled(Reply(200, q), s.(questions := SaveQuestion(s.questions, q))))
              && (status != "" && ParseStatus(status).None? ==> h == Handled(NoReply, s))
              && (ParseStatus(status).Some? ==>
                    var q' := q.(status := ParseStatus(status).value);
                    h == Handled(Reply(200, q'), s.(questions := SaveQuestion(s.questions, q'))))
  {
    match FindQuestion(s.questions, questionId)
    case None => Handled(Refuse(404, "Not found"), s)
    case Some(q) =>
      if status == "" then Handled(Reply(200, q), s.(questions := SaveQuestion(s.questions, q)))
      else
        match ParseStatus(status)
        case None => Handled(NoReply, s)
        case Some(st) =>
          var q' := q.(status := st);
          Handled(Reply(200, q'), s.(questions := SaveQuestion(s.questions, q')))
  }

  // ---------------------------------------------------------------------------------------
  // Properties
  // ---------------------------------------------------------------------------------------

  /** Marking is idempotent: a second mark answers the same and leaves the store as the first did. */
  lemma {:induction false} MarkImportantIdempotent(s: Store, questionId: Id)
    requires DistinctQuestionIds(s.questions)
    ensures var first := MarkImportant(s, questionId);
            MarkImportant(first.store, questionId) == first
  {
    var first := MarkImportant(s, questionId);
    if FindQuestion(s.questions, questionId).Some? {
      var q := FindQuestion(s.questions, questionId).value.(isImportant := true);
      SaveKeepsIdsDistinct(s.questions, q);
      FindAfterSave(s.questions, q);
      assert q.(isImportant := true) == q;
      SaveStoredIsNoop(first.store.questions, q);
    }
  }

  /** Unmarking undoes marking a question that was not important. */
  lemma {:induction false} UnmarkUndoesMark(s: Store, questionId: Id)
    requires DistinctQuestionIds(s.questions)
    requires FindQuestion(s.questions, questionId).Some?
    requires !FindQuestion(s.questions, questionId).value.isImportant
    ensures UnmarkImportant(MarkImportant(s, questionId).store, questionId).store == s
  {
    var original := FindQuestion(s.questions, questionId).value;
    var q := original.(isImportant := true);
    FindAfterSave(s.questions, q);
    assert q.(isImportant := false) == original;
    SaveTwice(s.questions, q, original);
    SaveStoredIsNoop(s.questions, original);
  }

  /** A status-less update answers with the stored question and, with unique ids, leaves the
      store exactly as it was. */
  lemma EmptyStatusUpdateKeepsStore(s: Store, questionId: Id)
    requires DistinctQuestionIds(s.questions)
    requires FindQuestion(s.questions, questionId).Some?
    ensures UpdateQuestion(s, questionId, "")
            == Handled(Reply(200, FindQuestion(s.questions, questionId).value), s)
  {
    SaveStoredIsNoop(s.questions, FindQuestion(s.questions, questionId).value);
  }

  /** After an update with a valid status, looking the question up finds it with that status and
      every other field as it was. */
  lemma UpdatedStatusIsFound(s: Store, questionId: Id, status: string)
    requires DistinctQuestionIds(s.questions)
    requires FindQuestion(s.questions, questionId).Some? && ParseStatus(status).Some?
    ensures FindQuestion(UpdateQuestion(s, questionId, status).store.questions, questionId)
            == Some(FindQuestion(s.questions, questionId).value.(status := ParseStatus(status).value))
  {
    FindAfterSave(s.questions, FindQuestion(s.questions, questionId).value.(status := ParseStatus(status).value));
  }

  /** Posting keeps question ids unique. */
  lemma PostPreservesValid(s: Store, user: Payload, lectureId: Id, content: string, now: int, freshId: Id)
    requires Valid(s)
    requires FreshQuestionId(s.questions, freshId)
    ensures Valid(PostQuestion(s, user, lectureId, content, now, freshId).store)
  {
    var h := PostQuestion(s, user, lectureId, content, now, freshId);
    if h.response.Reply? {
      AppendFreshQuestion(s.questions, Question(freshId, lectureId, user.id, Trim(content), now, Open, false));
    }
  }

  /** A posted question is in the next listing of its lecture, with its content trimmed. */
  lemma {:induction false} PostedQuestionIsListed(s: Store, user: Payload, lectureId: Id, content: string, now: int, freshId: Id)
    requires FreshQuestionId(s.questions, freshId)
    requires PostQuestion(s, user, lectureId, content, now, freshId).response.Reply?
    ensures var after := PostQuestion(s, user, lectureId, content, now, freshId).store;
            var vs := ListQuestions(after, lectureId).response.body;
            exists i :: 0 <= i < |vs| && vs[i].question.id == freshId && vs[i].question.content == Trim(content)
  {
    var after := PostQuestion(s, user, lectureId, content, now, freshId).store;
    var q := Question(freshId, lectureId, user.id, Trim(content), now, Open, false);
    assert q in after.questions;
    var listed := LectureQuestions(after.questions, lectureId);
    assert q in listed;
    var sorted := SortNewestFirst(listed);
    assert q in multiset(sorted);
    var vs := ListQuestions(after, lectureId).response.body;
    var k :| 0 <= k < |sorted| && sorted[k] == q;
    assert vs == PopulateAll(after.users, sorted);
    assert vs[k].question == q;
  }
}

=== FILE: question_board.dfy ===
/** The lecture page's question list on the client: the action reducer and the merge-update of
    `frontend/src/pages/LecturePage.jsx`, the list updates for incoming socket events, the
    filters of the page and of the whiteboard, and the counts and bulk actions of the teacher and
    student controls. */
module QuestionBoard {

  import opened Optional
  import opened Seqs

  /** A question as the page holds it; `id` is the client's own number (`Date.now()` on add). */
  datatype Note = Note(
    id: int, text: string, user: string, userId: Option<string>, timestamp: int, answered: bool, important: bool)

  // ---------------------------------------------------------------------------------------
  // The action reducer
  // ---------------------------------------------------------------------------------------

  /** Flip `answered` on every note with the given id. */
  function ToggleAnswered(qs: seq<Note>, id: int): (r: seq<Note>)
    ensures |r| == |qs|
    ensures forall i :: 0 <= i < |qs| && qs[i].id == id ==> r[i] == qs[i].(answered := !qs[i].answered)
    ensures forall i :: 0 <= i < |qs| && qs[i].id != id ==> r[i] == qs[i]
  {
    seq(|qs|, i requires 0 <= i < |qs| => if qs[i].id == id then qs[i].(answered := !qs[i].answered) else qs[i])
  }

  /** Flip `important` on every note with the given id. */
  function ToggleImportant(qs: seq<Note>, id: int): (r: seq<Note>)
    ensures |r| == |qs|
    ensures forall i :: 0 <= i < |qs| && qs[i].id == id ==> r[i] == qs[i].(important := !qs[i].important)
    ensures forall i :: 0 <= i < |qs| && qs[i].id != id ==> r[i] == qs[i]
  {
    seq(|qs|, i requires 0 <= i < |qs| => if qs[i].id == id then qs[i].(important := !qs[i].important) else qs[i])
  }

  /** `handleQuestionAction(action, question)`. `freshId` stands for `Date.now()` and `confirmed`
      for the answer to the confirmation dialog. */
  function HandleQuestionAction(qs: seq<Note>, action: string, target: Note, freshId: int, confirmed: bool)
    : (r: seq<Note>)
    ensures action == "add" ==> |r| == |qs| + 1 && r[..|qs|] == qs && r[|qs|] == target.(id := freshId)
    ensures action == "toggle-answered" ==> r == ToggleAnswered(qs, target.id)
    ensures action == "toggle-important" ==> r == ToggleImportant(qs, target.id)
    ensures action == "delete" ==>
              && (forall q :: q in r <==> q in qs && q.id != target.id)
              && IsSubsequence(r, qs)
    ensures action == "clear-all" ==> r == (if confirmed then [] else qs)
    ensures action !in {"add", "toggle-answered", "toggle-important", "delete", "clear-all"} ==> r == qs
  {
    if action == "add" then
      var r := qs + [target.(id := freshId)];
      assert r[..|qs|] == qs;
      r
    else if action == "toggle-answered" then ToggleAnswered(qs, target.id)
    else if action == "toggle-important" then ToggleImportant(qs, target.id)
    else if action == "delete" then Filter(qs, (q: Note) => q.id != target.id)
    else if action == "clear-all" then (if confirmed then [] else qs)
    else qs
  }

  /** Toggling answered twice restores the list. */
  lemma ToggleAnsweredTwice(qs: seq<Note>, target: Note, freshId: int, confirmed: bool)
    ensures var once := HandleQuestionAction(qs, "toggle-answered", target, freshId, confirmed);
            HandleQuestionAction(once, "toggle-answered", target, freshId, confirmed) == qs
  {
    var once := ToggleAnswered(qs, target.id);
    var twice := ToggleAnswered(once, target.id);
    assert forall i :: 0 <= i < |qs| ==> twice[i] == qs[i];
  }

  /** Toggling important twice restores the list. */
  lemma ToggleImportantTwice(qs: seq<Note>, target: Note, freshId: int, confirmed: bool)
    ensures var once := HandleQuestionAction(qs, "toggle-important", target, freshId, confirmed);
            HandleQuestionAction(once, "toggle-important", target, freshId, confirmed) == qs
  {
    var once := ToggleImportant(qs, target.id);
    var twice := ToggleImportant(once, target.id);
    assert forall i :: 0 <= i < |qs| ==> twice[i] == qs[i];
  }

  /** Deleting twice is deleting once, and leaves no note with that id. */
  lemma DeleteIdempotent(qs: seq<Note>, target: Note, freshId: int, confirmed: bool)
    ensures var once := HandleQuestionAction(qs, "delete", target, freshId, confirmed);
            && HandleQuestionAction(once, "delete", target, freshId, confirmed) == once
            && forall i :: 0 <= i < |once| ==> once[i].id != target.id
  {
    var once := HandleQuestionAction(qs, "delete", target, freshId, confirmed);
    assert forall i :: 0 <= i < |once| ==> once[i] in once;
  }

  // ---------------------------------------------------------------------------------------
  // Merge-updates and incoming events
  // ---------------------------------------------------------------------------------------

  /** The `updates` object the page merges in: only the fields it carries are replaced. */
  datatype Patch = Patch(answered: Option<bool>, important: Option<bool>, text: Option<string>)

  /** `{...q, ...updates}`. */
  function Merge(q: Note, p: Patch): (r: Note)
    ensures r.id == q.id && r.user == q.user && r.userId == q.userId && r.timestamp == q.timestamp
    ensures r.answered == (if p.answered.Some? then p.answered.value else q.answered)
    ensures r.important == (if p.important.Some? then p.important.value else q.important)
    ensures r.text == (if p.text.Some? then p.text.value else q.text)
    ensures p == Patch(None, None, None) ==> r == q
  {
    q.(answered := p.answered.GetOr(q.answered), important := p.important.GetOr(q.important), text := p.text.GetOr(q.text))
  }

  /** Merging the same patch a second time changes nothing. */
  lemma MergeTwice(q: Note, p: Patch)
    ensures Merge(Merge(q, p), p) == Merge(q, p)
  {
  }

  /** The `updateQuestion` event the page means to send to the server. */
  datatype Sent = Sent(questionId: int, updates: Patch)

  /** What one call of the page's update handler leaves behind: the notes once the queued merge
      is applied, the event sent to the server if any, and whether the call threw. */
  datatype UpdateOutcome = UpdateOutcome(notes: seq<Note>, sent: Option<Sent>, threw: bool)

  /** `handleUpdateQuestion(questionId, updates)` as the page has it. The merge into the notes with
      that id is queued first. The page's `socket` is the whole value of the socket context,
      `{socket, isConnected}` (`LecturePage.jsx:13`, `SocketContext.jsx:63`), which is always an
      object and has no `emit`: the guard passes, the call throws a TypeError, and nothing is sent. */
  function HandleUpdateQuestion(qs: seq<Note>, questionId: int, p: Patch): (r: UpdateOutcome)
    ensures |r.notes| == |qs|
    ensures forall i :: 0 <= i < |qs| && qs[i].id == questionId ==> r.notes[i] == Merge(qs[i], p)
    ensures forall i :: 0 <= i < |qs| && qs[i].id != questionId ==> r.notes[i] == qs[i]
    ensures r.threw && r.sent.None?
  {
    UpdateOutcome(seq(|qs|, i requires 0 <= i < |qs| => if qs[i].id == questionId then Merge(qs[i], p) else qs[i]),
                  None, true)
  }

  /** The handler as evidently intended, with the client socket taken out of the context value
      (`const { socket } = useSocket()`): the same merge, no exception, and the same update
      forwarded to the server exactly when a socket exists. */
  function HandleUpdateQuestionIntended(qs: seq<Note>, questionId: int, p: Patch, hasSocket: bool)
    : (r: UpdateOutcome)
    ensures r.notes == HandleUpdateQuestion(qs, questionId, p).notes
    ensures !r.threw
    ensures r.sent.Some? <==> hasSocket
    ensures r.sent.Some? ==> r.sent.value == Sent(questionId, p)
  {
    UpdateOutcome(HandleUpdateQuestion(qs, questionId, p).notes,
                  if hasSocket then Some(Sent(questionId, p)) else None, false)
  }

  /** Repeating an update leaves the notes as the first call did. */
  lemma UpdateTwiceIsUpdateOnce(qs: seq<Note>, questionId: int, p: Patch)
    ensures var once := HandleUpdateQuestion(qs, questionId, p).notes;
            HandleUpdateQuestion(once, questionId, p).notes == once
  {
    var once := HandleUpdateQuestion(qs, questionId, p).notes;
    var twice := HandleUpdateQuestion(once, questionId, p).notes;
    forall i | 0 <= i < |qs|
      ensures twice[i] == once[i]
    {
      if qs[i].id == questionId {
        MergeTwice(qs[i], p);
      }
    }
  }

  /** The `newQuestion` listener the page means to install: the note is appended. As written the
      listener is never installed (see `LecturePage.jsx:143-147`). */
  function OnNewQuestion(qs: seq<Note>, q: Note): (r: seq<Note>)
    ensures |r| == |qs| + 1 && r[..|qs|] == qs && r[|qs|] == q
  {
    var r := qs + [q];
    assert r[..|qs|] == qs;
    r
  }

  /** Deleting a newly arrived note whose id no other note has gives the list back as it was. */
  lemma DeleteUndoesNewQuestion(qs: seq<Note>, q: Note, freshId: int, confirmed: bool)
    requires forall i :: 0 <= i < |qs| ==> qs[i].id != q.id
    ensures HandleQuestionAction(OnNewQuestion(qs, q), "delete", q, freshId, confirmed) == qs
  {
    var keep := (n: Note) => n.id != q.id;
    assert OnNewQuestion(qs, q) == qs + [q];
    FilterAppend(qs, [q], keep);
    assert Filter([q], keep) == [];
  }

  /** The `questionUpdated` listener the page means to install: the notes with the same id are
      replaced, nothing is added. */
  function OnQuestionUpdated(qs: seq<Note>, u: Note): (r: seq<Note>)
    ensures |r| == |qs|
    ensures forall i :: 0 <= i < |qs| ==> r[i] == (if qs[i].id == u.id then u else qs[i])
    ensures u in qs ==> u in r
  {
    seq(|qs|, i requires 0 <= i < |qs| => if qs[i].id == u.id then u else qs[i])
  }

  /** A second delivery of the same update changes nothing. */
  lemma OnQuestionUpdatedIdempotent(qs: seq<Note>, u: Note)
    ensures OnQuestionUpdated(OnQuestionUpdated(qs, u), u) == OnQuestionUpdated(qs, u)
  {
  }

  // ---------------------------------------------------------------------------------------
  // Filters and counts
  // ---------------------------------------------------------------------------------------

  /** The page's filter and the controls' tab counts: unknown filters keep everything. */
  predicate PageFilter(filter: string, q: Note) {
    if filter == "all" then true
    else if filter == "unanswered" then !q.answered
    else if filter == "important" then q.important
    else true
  }

  /** The whiteboard's own filter, which also knows `answered`. */
  predicate BoardFilter(filter: string, q: Note) {
    if filter == "answered" then q.answered
    else if filter == "unanswered" then !q.answered
    else if filter == "important" then q.important
    else true
  }

  /** `filteredQuestions` on the page. */
  function PageView(qs: seq<Note>, filter: string): (r: seq<Note>)
    ensures IsSubsequence(r, qs)
    ensures filter == "unanswered" ==> forall q :: q in r <==> q in qs && !q.answered
    ensures filter == "important" ==> forall q :: q in r <==> q in qs && q.important
    ensures filter != "unanswered" && filter != "important" ==> r == qs
  {
    Filter(qs, q => PageFilter(filter, q))
  }

  /** `filteredQuestions` on the whiteboard. */
  function BoardView(qs: seq<Note>, filter: string): (r: seq<Note>)
    ensures IsSubsequence(r, qs)
    ensures filter == "answered" ==> forall q :: q in r <==> q in qs && q.answered
    ensures filter == "unanswered" ==> forall q :: q in r <==> q in qs && !q.answered
    ensures filter == "important" ==> forall q :: q in r <==> q in qs && q.important
    ensures filter !in {"answered", "unanswered", "important"} ==> r == qs
  {
    Filter(qs, q => BoardFilter(filter, q))
  }

  /** On the whiteboard the answered and unanswered views split the list between them. */
  lemma {:induction false} BoardAnsweredUnansweredPartition(qs: seq<Note>)
    ensures |BoardView(qs, "answered")| + |BoardView(qs, "unanswered")| == |qs|
  {
    if |qs| > 0 {
      BoardAnsweredUnansweredPartition(qs[1..]);
    }
  }

  /** A tab's badge: the number of notes its filter keeps, counted by position. */
  function TabCount(qs: seq<Note>, filter: string): (n: nat)
    ensures n <= |qs|
    ensures n == |set i | 0 <= i < |qs| && PageFilter(filter, qs[i])|
  {
    var keep := (q: Note) => PageFilter(filter, q);
    CountPositions(qs, keep);
    assert (set i | 0 <= i < |qs| && PageFilter(filter, qs[i])) == Positions(qs, keep);
    Count(qs, keep)
  }

  /** The badge of a tab is the length of the list the page shows under that filter. */
  lemma TabCountIsViewLength(qs: seq<Note>, filter: string)
    ensures TabCount(qs, filter) == |PageView(qs, filter)|
  {
  }

  /** The student controls' "Showing X of Y questions". */
  function Showing(qs: seq<Note>, activeFilter: string): (xy: (nat, nat))
    ensures xy.1 == |qs|
    ensures xy.0 <= xy.1
    ensures xy.0 == TabCount(qs, activeFilter)
    ensures activeFilter !in {"unanswered", "important"} ==> xy.0 == xy.1
  {
    (TabCount(qs, activeFilter), |qs|)
  }

  /** The unanswered and the answered notes together are all of them, so the unanswered badge and
      the count of answered notes add up to the "all" badge. */
  lemma {:induction false} UnansweredBadgeComplement(qs: seq<Note>)
    ensures TabCount(qs, "unanswered") + |BoardView(qs, "answered")| == TabCount(qs, "all")
  {
    if |qs| > 0 {
      UnansweredBadgeComplement(qs[1..]);
    }
  }

  // ---------------------------------------------------------------------------------------
  // Teacher bulk actions
  // ---------------------------------------------------------------------------------------

  /** One update per note. */
  datatype Update = Update(id: int, patch: Patch)

  const AnsweredPatch := Patch(Some(true), None, None)

  /** The position of the first unanswered note, `|qs|` when every note is answered. */
  function FirstUnanswered(qs: seq<Note>): (k: nat)
    ensures k <= |qs|
    ensures forall j :: 0 <= j < k ==> qs[j].answered
    ensures k < |qs| ==> !qs[k].answered
  {
    if |qs| == 0 || !qs[0].answered then 0
    else
      assert forall j :: 1 <= j < |qs| ==> qs[j] == qs[1..][j - 1];
      1 + FirstUnanswered(qs[1..])
  }

  /** `markAllAnswered`: one `{answered: true}` update for each unanswered note, in list order,
      and none for the answered ones; the first is for the first unanswered note. */
  function MarkAllAnswered(qs: seq<Note>): (ups: seq<Update>)
    ensures |ups| == Count(qs, (q: Note) => !q.answered)
    ensures forall i :: 0 <= i < |ups| ==> ups[i].patch == AnsweredPatch
    ensures forall i :: 0 <= i < |qs| && !qs[i].answered ==> qs[i].id in IdsOf(ups)
    ensures |ups| == 0 <==> FirstUnanswered(qs) == |qs|
    ensures |ups| > 0 ==> ups[0].id == qs[FirstUnanswered(qs)].id
  {
    if |qs| == 0 then []
    else
      var rest := MarkAllAnswered(qs[1..]);
      assert forall i :: 1 <= i < |qs| ==> qs[i] == qs[1..][i - 1];
      CountCons(qs, (q: Note) => !q.answered);
      if qs[0].answered then rest
      else
        var ups := [Update(qs[0].id, AnsweredPatch)] + rest;
        assert ups[1..] == rest;
        ups
  }

  /** The notes whose id is among `ids` marked answered, the rest as they were. */
  function MarkedAnswered(qs: seq<Note>, ids: set<int>): (r: seq<Note>)
    ensures |r| == |qs|
  {
    seq(|qs|, i requires 0 <= i < |qs| => if qs[i].id in ids then qs[i].(answered := true) else qs[i])
  }

  /** The ids the updates name. */
  function IdsOf(ups: seq<Update>): set<int> {
    if |ups| == 0 then {} else {ups[0].id} + IdsOf(ups[1..])
  }

  /** "Mark All Answered" as written. `markAllAnswered` hands the updates to the page's handler
      inside `questions.forEach`; the first call throws, which ends the loop, so only that call's
      merge is ever queued. */
  function MarkAllAnsweredAsWritten(qs: seq<Note>): (r: seq<Note>)
    ensures |r| == |qs|
    ensures FirstUnanswered(qs) == |qs| ==> r == qs
    ensures FirstUnanswered(qs) < |qs| ==> r == MarkedAnswered(qs, {qs[FirstUnanswered(qs)].id})
  {
    var ups := MarkAllAnswered(qs);
    if |ups| == 0 then qs
    else
      AnsweredMergeMarks(qs, ups[0].id);
      HandleUpdateQuestion(qs, ups[0].id, ups[0].patch).notes
  }

  /** The smallest input that shows it: two unanswered notes, and the second is left unanswered. */
  lemma MarkAllAnsweredLeavesSecondUnanswered(a: Note, b: Note)
    requires !a.answered && !b.answered && a.id != b.id
    ensures !MarkAllAnsweredAsWritten([a, b])[1].answered
  {
  }

  /** Merging `{answered: true}` into the notes with one id marks exactly those notes answered. */
  lemma AnsweredMergeMarks(qs: seq<Note>, id: int)
    ensures HandleUpdateQuestion(qs, id, AnsweredPatch).notes == MarkedAnswered(qs, {id})
  {
    var r := HandleUpdateQuestion(qs, id, AnsweredPatch).notes;
    assert forall i :: 0 <= i < |qs| ==> r[i] == MarkedAnswered(qs, {id})[i];
  }

  /** The page's list after the updates, applied one after another through the intended handler,
      which never throws; whether a socket exists does not change the notes. */
  function ApplyUpdates(qs: seq<Note>, ups: seq<Update>): (r: seq<Note>)
    ensures |r| == |qs|
    decreases |ups|
  {
    if |ups| == 0 then qs
    else ApplyUpdates(HandleUpdateQuestionIntended(qs, ups[0].id, ups[0].patch, true).notes, ups[1..])
  }

  /** Applying answered-only updates marks exactly the notes whose id they name. */
  lemma {:induction false} ApplyAnsweredUpdates(qs: seq<Note>, ups: seq<Update>)
    requires forall j :: 0 <= j < |ups| ==> ups[j].patch == AnsweredPatch
    ensures ApplyUpdates(qs, ups) == MarkedAnswered(qs, IdsOf(ups))
    decreases |ups|
  {
    if |ups| == 0 {
      assert MarkedAnswered(qs, {}) == qs;
    } else {
      var first := HandleUpdateQuestionIntended(qs, ups[0].id, AnsweredPatch, true).notes;
      AnsweredMergeMarks(qs, ups[0].id);
      ApplyAnsweredUpdates(first, ups[1..]);
    }
  }

  /** "Mark All Answered" composed with the intended update handler: afterwards every note is
      answered, and no other field of any note has changed. */
  lemma MarkAllAnsweredAnswersAll(qs: seq<Note>)
    ensures var r := ApplyUpdates(qs, MarkAllAnswered(qs));
            |r| == |qs| && forall i :: 0 <= i < |qs| ==> r[i] == qs[i].(answered := true)
  {
    var ups := MarkAllAnswered(qs);
    ApplyAnsweredUpdates(qs, ups);
    var r := ApplyUpdates(qs, ups);
    forall i | 0 <= i < |qs|
      ensures r[i] == qs[i].(answered := true)
    {
      if !qs[i].answered {
        assert qs[i].id in IdsOf(ups);
      }
    }
  }

  /** The whiteboard's trash button: asks for confirmation, then requests `clear-all` through its
      `onQuestionAction` prop. */
  function ClearAllRequest(confirmed: bool): (action: Option<string>)
    ensures action.Some? <==> confirmed
    ensures action.Some? ==> action.value == "clear-all"
  {
    if confirmed then Some("clear-all") else None
  }

  /** The whiteboard's request reaches the page's reducer, which asks again: the list is emptied
      only when both confirmations are given, and is otherwise unchanged. */
  lemma ClearAllNeedsBothConfirmations(qs: seq<Note>, target: Note, freshId: int, boardConfirmed: bool, pageConfirmed: bool)
    ensures var r := match ClearAllRequest(boardConfirmed)
                     case None => qs
                     case Some(action) => HandleQuestionAction(qs, action, target, freshId, pageConfirmed);
            r == (if boardConfirmed && pageConfirmed then [] else qs)
  {
  }

  /** What a click of the teacher controls' "Clear All" leaves behind. */
  datatype ClearOutcome = ClearOutcome(notes: seq<Note>, threw: bool)

  /** `clearAll` in the teacher controls as written. The page renders the controls without an
      `onQuestionAction` prop (`LecturePage.jsx:247-252`), so once the teacher confirms, the call
      of the missing prop throws and the list is kept; without confirmation nothing happens. */
  function TeacherClearAll(qs: seq<Note>, confirmed: bool): (r: ClearOutcome)
    ensures r.threw <==> confirmed
    ensures r.notes == qs
  {
    ClearOutcome(qs, confirmed)
  }

  /** As written the teacher's "Clear All" never empties a non-empty list, while the same request
      through the whiteboard does once both confirmations are given. */
  lemma TeacherClearAllNeverClears(qs: seq<Note>, target: Note, freshId: int)
    requires |qs| > 0
    ensures TeacherClearAll(qs, true).notes != []
    ensures HandleQuestionAction(qs, ClearAllRequest(true).value, target, freshId, true) == []
  {
  }
}

=== FILE: question_forms.dfy ===
/** Input validation on the client: the whiteboard's submit handler
    (`frontend/src/components/Whiteboard.jsx`) and the stand-alone question form
    (`frontend/src/components/QuestionForm.jsx`). */
module QuestionForms {

  import opened Optional
  import opened Text
  import Utf16
  import opened QuestionBoard

  // ---------------------------------------------------------------------------------------
  // The whiteboard
  // ---------------------------------------------------------------------------------------

  /** The signed-in user as the whiteboard reads it; an empty name counts as missing. */
  datatype Author = Author(name: string, id: Option<string>)

  /** A question handed to the page's `add` action, before the page gives it an id. */
  datatype Draft = Draft(text: string, user: string, userId: Option<string>, timestamp: int, answered: bool, important: bool)

  /** The note the page stores for a draft: the draft's fields and the given id. */
  function AsNote(d: Draft, id: int): (n: Note)
    ensures n.id == id && n.text == d.text && n.user == d.user && n.userId == d.userId
    ensures n.timestamp == d.timestamp && n.answered == d.answered && n.important == d.important
  {
    Note(id, d.text, d.user, d.userId, d.timestamp, d.answered, d.important)
  }

  /** What a submit leaves behind: the draft passed to `onAddQuestion`, if any, and the input
      field and error message afterwards. */
  datatype BoardSubmit = BoardSubmit(emitted: Option<Draft>, input: string, error: string)

  /** Some shown question has the same text up to letter case; neither side is trimmed. */
  predicate AlreadyAsked(shown: seq<Note>, input: string) {
    exists i :: 0 <= i < |shown| && Lower(shown[i].text) == Lower(input)
  }

  /** `handleSubmit` at time `now`, against the questions the page passes in (its filtered list),
      with `error` the message currently displayed. */
  function WhiteboardSubmit(shown: seq<Note>, input: string, error: string, user: Author, now: int): (r: BoardSubmit)
    ensures IsBlank(input) ==> r == BoardSubmit(None, input, "Question cannot be empty")
    ensures !IsBlank(input) && AlreadyAsked(shown, input) ==>
              r == BoardSubmit(None, input, "This question has already been asked")
    ensures r.emitted.Some? <==> !IsBlank(input) && !AlreadyAsked(shown, input)
    ensures r.emitted.Some? ==>
              && r.emitted.value.text == input
              && r.emitted.value.user == (if user.name == "" then "Anonymous" else user.name)
              && r.emitted.value.userId == user.id
              && r.emitted.value.timestamp == now
              && !r.emitted.value.answered && !r.emitted.value.important
              && r.input == "" && r.error == ""
  {
    if IsBlank(input) then BoardSubmit(None, input, "Question cannot be empty")
    else if exists i :: 0 <= i < |shown| && Lower(shown[i].text) == Lower(input) then
      BoardSubmit(None, input, "This question has already been asked")
    else
      var name := if user.name == "" then "Anonymous" else user.name;
      BoardSubmit(Some(Draft(input, name, user.id, now, false, false)), "", "")
  }

  /** A question accepted by the whiteboard and added by the page is then shown under the "all"
      and "unanswered" filters, so submitting the same text again, in any letter case, is refused. */
  lemma {:induction false} ResubmitIsRefused(qs: seq<Note>, filter: string, input: string, again: string, error: string,
                                             user: Author, now: int, later: int, freshId: int, confirmed: bool)
    requires filter == "all" || filter == "unanswered"
    requires WhiteboardSubmit(PageView(qs, filter), input, error, user, now).emitted.Some?
    requires Lower(again) == Lower(input) && !IsBlank(again)
    ensures var d := WhiteboardSubmit(PageView(qs, filter), input, error, user, now).emitted.value;
            var after := HandleQuestionAction(qs, "add", AsNote(d, 0), freshId, confirmed);
            WhiteboardSubmit(PageView(after, filter), again, "", user, later)
              == BoardSubmit(None, again, "This question has already been asked")
  {
    var d := WhiteboardSubmit(PageView(qs, filter), input, error, user, now).emitted.value;
    var n := AsNote(d, 0).(id := freshId);
    var after := HandleQuestionAction(qs, "add", AsNote(d, 0), freshId, confirmed);
    assert after[|qs|] == n;
    assert n in after;
    var shown := PageView(after, filter);
    assert n in shown;
    var k :| 0 <= k < |shown| && shown[k] == n;
    assert Lower(shown[k].text) == Lower(again);
  }

  /** The duplicate check only sees what the page shows: under the "unanswered" filter a question
      identical to an answered one is accepted. */
  lemma HiddenDuplicateIsAccepted(qs: seq<Note>, input: string, error: string, user: Author, now: int)
    requires !IsBlank(input)
    requires forall i :: 0 <= i < |qs| && Lower(qs[i].text) == Lower(input) ==> qs[i].answered
    ensures WhiteboardSubmit(PageView(qs, "unanswered"), input, error, user, now).emitted.Some?
  {
    var shown := PageView(qs, "unanswered");
    forall i | 0 <= i < |shown|
      ensures Lower(shown[i].text) != Lower(input)
    {
      assert shown[i] in shown;
    }
  }

  // ---------------------------------------------------------------------------------------
  // The question form
  // ---------------------------------------------------------------------------------------

  /** The longest text the form accepts, counted in UTF-16 code units as `text.length` does. */
  const MaxLength: nat := 500

  /** What a submit leaves behind: the text passed to `onSubmit`, if any, the field and the error. */
  datatype FormSubmit = FormSubmit(submitted: Option<string>, text: string, error: string)

  /** `handleSubmit`: the previous error is cleared first; blank text, then text longer than the
      limit, is refused; otherwise the text goes out exactly as typed and the field is cleared. */
  function QuestionFormSubmit(text: string): (r: FormSubmit)
    ensures IsBlank(text) ==> r == FormSubmit(None, text, "Please enter a question")
    ensures !IsBlank(text) && Utf16.Length(text) > MaxLength ==>
              r == FormSubmit(None, text, "Question must be less than 500 characters")
    ensures r.submitted.Some? <==> !IsBlank(text) && Utf16.Length(text) <= MaxLength
    ensures r.submitted.Some? ==> r == FormSubmit(Some(text), "", "")
  {
    if IsBlank(text) then FormSubmit(None, text, "Please enter a question")
    else if Utf16.Length(text) > MaxLength then FormSubmit(None, text, "Question must be less than 500 characters")
    else FormSubmit(Some(text), "", "")
  }

  /** The send button's `disabled`. */
  function SubmitDisabled(text: string, isLoading: bool): (b: bool)
    ensures b <==> AllSpace(text) || isLoading
  {
    IsBlank(text) || isLoading
  }

  /** The button and the handler agree: text the enabled button sends within the limit is
      submitted, and whatever is submitted would have left the button enabled when not loading. */
  lemma ButtonAgreesWithHandler(text: string, isLoading: bool)
    ensures !SubmitDisabled(text, isLoading) && Utf16.Length(text) <= MaxLength ==>
              QuestionFormSubmit(text).submitted == Some(text)
    ensures QuestionFormSubmit(text).submitted.Some? ==> !SubmitDisabled(text, false)
  {
  }

  /** Despite the message, a text of exactly the limit is accepted, and one above it is refused
      even when its trimmed form would fit. */
  lemma LimitIsInclusiveAndUntrimmed(text: string)
    requires !IsBlank(text)
    ensures Utf16.Length(text) == MaxLength ==> QuestionFormSubmit(text).submitted == Some(text)
    ensures Utf16.Length(text) > MaxLength ==> QuestionFormSubmit(text).submitted.None?
  {
  }
}

=== FILE: records.dfy ===
/** The four persisted entities (User, Course, Lecture, Question), their schema defaults and
    validation, the lecture time window, and the entity store the handlers read and write. */
module Records {

  import opened Optional
  import opened Text
  import opened Seqs

  /** Document identifiers are opaque strings. */
  type Id = string

  /** An abstract password hash (bcrypt in the source). */
  type Hasher = string -> string

  // ---------------------------------------------------------------------------------------
  // Enumerations
  // ---------------------------------------------------------------------------------------

  /** The User schema's `role` enumeration. */
  datatype Role = Student | Instructor | Ta | Admin

  function RoleName(r: Role): string {
    match r
    case Student => "student"
    case Instructor => "instructor"
    case Ta => "ta"
    case Admin => "admin"
  }

  /** Casting a string to the `role` path: only the four enumerated names validate. */
  function ParseRole(s: string): (r: Option<Role>)
    ensures r.Some? ==> RoleName(r.value) == s
    ensures forall role :: RoleName(role) == s ==> r == Some(role)
  {
    if s == "student" then Some(Student)
    else if s == "instructor" then Some(Instructor)
    else if s == "ta" then Some(Ta)
    else if s == "admin" then Some(Admin)
    else None
  }

  /** The Question schema's `status` enumeration. */
  datatype Status = Open | Answered

  function StatusName(s: Status): string {
    match s
    case Open => "open"
    case Answered => "answered"
  }

  /** Casting a string to the `status` path: only "open" and "answered" validate. */
  function ParseStatus(s: string): (r: Option<Status>)
    ensures r.Some? ==> StatusName(r.value) == s
    ensures forall st :: StatusName(st) == s ==> r == Some(st)
  {
    if s == "open" then Some(Open)
    else if s == "answered" then Some(Answered)
    else None
  }

  // ---------------------------------------------------------------------------------------
  // Entities
  // ---------------------------------------------------------------------------------------

  datatype User = User(id: Id, name: string, email: string, passwordHash: string, role: Role, createdAt: int)

  /** A course; its identifier is its key in the store. */
  datatype Course = Course(title: string, instructorId: Id, students: seq<Id>, createdAt: int)

  /** A lecture; its identifier is its key in the store. Start and end are optional in the
      schema: a missing one is `new Date(undefined)`, the invalid date, modelled as None. A stored
      `null` is `new Date(null)`, the epoch, and is written `Some(0)`. */
  datatype Lecture = Lecture(course: Id, title: string, startTime: Option<int>, endTime: Option<int>, createdAt: int)

  datatype Question = Question(
    id: Id, lecture: Id, askedBy: Id, content: string, timestamp: int, status: Status, isImportant: bool)

  // ---------------------------------------------------------------------------------------
  // The lecture window
  // ---------------------------------------------------------------------------------------

  /** `date > now` on a possibly invalid date: a comparison with NaN is false. */
  predicate After(date: Option<int>, now: int) {
    date.Some? && date.value > now
  }

  /** `date < now` on a possibly invalid date. */
  predicate Before(date: Option<int>, now: int) {
    date.Some? && date.value < now
  }

  /** The handlers' test `!(start > current || end < current)`: the window is inclusive at both
      ends, and a missing bound never excludes anything. */
  function IsOngoing(l: Lecture, now: int): (r: bool)
    ensures r <==> (l.startTime.None? || l.startTime.value <= now) && (l.endTime.None? || now <= l.endTime.value)
    ensures l.startTime.Some? && l.endTime.Some? ==>
              (r <==> l.startTime.value <= now <= l.endTime.value)
    ensures l.startTime.None? && l.endTime.None? ==> r
    ensures r ==> forall t :: l.startTime == Some(t) ==> t <= now
    ensures r ==> forall t :: l.endTime == Some(t) ==> now <= t
  {
    !(After(l.startTime, now) || Before(l.endTime, now))
  }

  // ---------------------------------------------------------------------------------------
  // Creating documents
  // ---------------------------------------------------------------------------------------

  /** `Question.create({lecture, askedBy, content})` at time `now`: the `required` validators
      reject a missing or empty string, and the defaults fill in the rest. */
  function CreateQuestion(id: Id, lecture: Id, askedBy: Id, content: string, now: int): (r: Option<Question>)
    ensures r.Some? <==> lecture != "" && askedBy != "" && content != ""
    ensures r.Some? ==> && r.value.id == id && r.value.lecture == lecture && r.value.askedBy == askedBy
                        && r.value.content == content && r.value.timestamp == now
                        && r.value.status == Open && !r.value.isImportant
  {
    if lecture == "" || askedBy == "" || content == "" then None
    else Some(Question(id, lecture, askedBy, content, now, Open, false))
  }

  /** `bcrypt.compare(password, passwordHash)` over the abstract hash. */
  predicate ValidatePassword(u: User, password: string, hash: Hasher) {
    hash(password) == u.passwordHash
  }

  /** `user.setPassword(password)`: replaces the hash and nothing else, after which the same
      password validates. */
  function SetPassword(u: User, password: string, hash: Hasher): (r: User)
    ensures ValidatePassword(r, password, hash)
    ensures r.id == u.id && r.name == u.name && r.email == u.email && r.role == u.role && r.createdAt == u.createdAt
  {
    u.(passwordHash := hash(password))
  }

  /** `new User({name, email, role})`, `setPassword(password)` and the validation `save()` runs:
      name, email and hash are required, the email is stored lower-cased, and the role must be
      one of the enumeration, defaulting to student when none is given. */
  function CreateUser(id: Id, name: string, email: string, password: string, role: Option<string>,
                      hash: Hasher, now: int): (r: Option<User>)
    ensures r.Some? <==> name != "" && email != "" && hash(password) != ""
                         && (role.None? || ParseRole(role.value).Some?)
    ensures r.Some? ==> && r.value.id == id && r.value.name == name && r.value.email == Lower(email)
                        && ValidatePassword(r.value, password, hash)
                        && (role.None? ==> r.value.role == Student)
                        && (role.Some? ==> RoleName(r.value.role) == role.value)
  {
    var parsed := if role.None? then Some(Student) else ParseRole(role.value);
    if name == "" || email == "" || parsed.None? then None
    else
      var u := SetPassword(User(id, name, Lower(email), "", parsed.value, now), password, hash);
      if u.passwordHash == "" then None else Some(u)
  }

  // ---------------------------------------------------------------------------------------
  // The store
  // ---------------------------------------------------------------------------------------

  /** The four collections. Users and questions keep insertion (natural) order, which is what
      `find`/`findOne` return; courses and lectures are looked up by key only. */
  datatype Store = Store(users: seq<User>, courses: map<Id, Course>, lectures: map<Id, Lecture>, questions: seq<Question>)

  /** The referenced user as `populate('askedBy', 'name')` renders it. */
  datatype Asker = Asker(id: Id, name: string)

  /** A question with its author populated; the author is null when the user no longer exists. */
  datatype QuestionView = QuestionView(question: Question, askedBy: Option<Asker>)

  /** `User.findById(id)`. */
  function FindUser(users: seq<User>, id: Id): (r: Option<User>)
    ensures r.Some? ==> r.value in users && r.value.id == id
    ensures r.Some? ==> exists i :: 0 <= i < |users| && users[i] == r.value
                                   && forall j :: 0 <= j < i ==> users[j].id != id
    ensures r.None? <==> forall i :: 0 <= i < |users| ==> users[i].id != id
  {
    Find(users, (u: User) => u.id == id)
  }

  /** `User.findOne({email})`; the schema's lower-casing setter also applies to the query value. */
  function FindUserByEmail(users: seq<User>, email: string): (r: Option<User>)
    ensures r.Some? ==> r.value in users && r.value.email == Lower(email)
    ensures r.None? <==> forall i :: 0 <= i < |users| ==> users[i].email != Lower(email)
  {
    Find(users, (u: User) => u.email == Lower(email))
  }

  /** `Question.findById(id)`. */
  function FindQuestion(qs: seq<Question>, id: Id): (r: Option<Question>)
    ensures r.Some? ==> r.value in qs && r.value.id == id
    ensures r.None? <==> forall i :: 0 <= i < |qs| ==> qs[i].id != id
  {
    Find(qs, (q: Question) => q.id == id)
  }

  /** `populate('askedBy', 'name')` on one question. */
  function Populate(users: seq<User>, q: Question): (v: QuestionView)
    ensures v.question == q
    ensures v.askedBy.Some? ==> v.askedBy.value.id == q.askedBy
    ensures v.askedBy.Some? ==> exists i :: 0 <= i < |users| && users[i].id == q.askedBy
                                            && v.askedBy.value.name == users[i].name
                                            && forall j :: 0 <= j < i ==> users[j].id != q.askedBy
    ensures v.askedBy.None? <==> forall i :: 0 <= i < |users| ==> users[i].id != q.askedBy
  {
    match FindUser(users, q.askedBy)
    case Some(u) => QuestionView(q, Some(Asker(u.id, u.name)))
    case None => QuestionView(q, None)
  }

  function PopulateAll(users: seq<User>, qs: seq<Question>): (vs: seq<QuestionView>)
    ensures |vs| == |qs|
    ensures forall i :: 0 <= i < |qs| ==> vs[i] == Populate(users, qs[i])
  {
    seq(|qs|, i requires 0 <= i < |qs| => Populate(users, qs[i]))
  }

  /** The stored documents behind a list of populated views. */
  function QuestionsOf(vs: seq<QuestionView>): seq<Question> {
    seq(|vs|, i requires 0 <= i < |vs| => vs[i].question)
  }

  /** Populating changes no document: the views are of the very questions given, in order. */
  lemma PopulateAllKeepsQuestions(users: seq<User>, qs: seq<Question>)
    ensures QuestionsOf(PopulateAll(users, qs)) == qs
  {
    assert forall i :: 0 <= i < |qs| ==> QuestionsOf(PopulateAll(users, qs))[i] == qs[i];
  }

  /** `Question.find({lecture: lectureId})`. */
  function LectureQuestions(qs: seq<Question>, lectureId: Id): (r: seq<Question>)
    ensures forall q :: q in r <==> q in qs && q.lecture == lectureId
    ensures IsSubsequence(r, qs)
  {
    Filter(qs, (q: Question) => q.lecture == lectureId)
  }

  /** `q.save()` of a modified question: the stored document with the same id is replaced. */
  function SaveQuestion(qs: seq<Question>, q: Question): (r: seq<Question>)
    ensures |r| == |qs|
    ensures forall i :: 0 <= i < |qs| ==> r[i] == (if qs[i].id == q.id then q else qs[i])
  {
    seq(|qs|, i requires 0 <= i < |qs| => if qs[i].id == q.id then q else qs[i])
  }

  /** `Question.findByIdAndDelete(id)`. */
  function DeleteQuestion(qs: seq<Question>, id: Id): (r: seq<Question>)
    ensures forall q :: q in r <==> q in qs && q.id != id
    ensures IsSubsequence(r, qs)
  {
    Filter(qs, (q: Question) => q.id != id)
  }

  /** `Question.deleteMany({lecture: lectureId})`. */
  function DeleteLectureQuestions(qs: seq<Question>, lectureId: Id): (r: seq<Question>)
    ensures forall q :: q in r <==> q in qs && q.lecture != lectureId
    ensures IsSubsequence(r, qs)
  {
    Filter(qs, (q: Question) => q.lecture != lectureId)
  }

  predicate DistinctQuestionIds(qs: seq<Question>) {
    forall i, j :: 0 <= i < j < |qs| ==> qs[i].id != qs[j].id
  }

  predicate FreshQuestionId(qs: seq<Question>, id: Id) {
    forall i :: 0 <= i < |qs| ==> qs[i].id != id
  }

  predicate FreshUserId(users: seq<User>, id: Id) {
    forall i :: 0 <= i < |users| ==> users[i].id != id
  }

  /** The store's uniqueness guarantees: document ids, the unique email index, and a course
      roster without repeated students. */
  predicate Valid(s: Store) {
    && DistinctQuestionIds(s.questions)
    && (forall i, j :: 0 <= i < j < |s.users| ==> s.users[i].id != s.users[j].id)
    && (forall i, j :: 0 <= i < j < |s.users| ==> s.users[i].email != s.users[j].email)
    && (forall c :: c in s.courses ==> NoDuplicates(s.courses[c].students))
  }

  /** Appending a question with a fresh id keeps ids unique. */
  lemma AppendFreshQuestion(qs: seq<Question>, q: Question)
    requires DistinctQuestionIds(qs) && FreshQuestionId(qs, q.id)
    ensures DistinctQuestionIds(qs + [q])
  {
  }

  /** Saving a question under an existing id keeps ids unique. */
  lemma SaveKeepsIdsDistinct(qs: seq<Question>, q: Question)
    requires DistinctQuestionIds(qs)
    ensures DistinctQuestionIds(SaveQuestion(qs, q))
  {
  }

  /** Saving a document exactly as it is stored changes nothing when ids are unique. */
  lemma SaveStoredIsNoop(qs: seq<Question>, q: Question)
    requires DistinctQuestionIds(qs)
    requires q in qs
    ensures SaveQuestion(qs, q) == qs
  {
    var k :| 0 <= k < |qs| && qs[k] == q;
    forall i | 0 <= i < |qs|
      ensures SaveQuestion(qs, q)[i] == qs[i]
    {
      if qs[i].id == q.id {
        assert i == k;
      }
    }
  }

  /** The second of two saves under the same id overrides the first. */
  lemma SaveTwice(qs: seq<Question>, a: Question, b: Question)
    requires a.id == b.id
    ensures SaveQuestion(SaveQuestion(qs, a), b) == SaveQuestion(qs, b)
  {
    var once := SaveQuestion(qs, a);
    forall i | 0 <= i < |qs|
      ensures SaveQuestion(once, b)[i] == SaveQuestion(qs, b)[i]
    {
    }
  }

  /** After a save, looking the id up again finds the saved document. */
  lemma FindAfterSave(qs: seq<Question>, q: Question)
    requires DistinctQuestionIds(qs)
    requires FindQuestion(qs, q.id).Some?
    ensures FindQuestion(SaveQuestion(qs, q), q.id) == Some(q)
  {
    var r := SaveQuestion(qs, q);
    var k :| 0 <= k < |qs| && qs[k] == FindQuestion(qs, q.id).value;
    assert r[k] == q;
    var found := FindQuestion(r, q.id);
    var j :| 0 <= j < |r| && r[j] == found.value;
    assert qs[j].id == q.id;
    assert j == k;
  }

  /** Deleting keeps ids unique, since the result is a subsequence. */
  lemma {:induction false} SubsequenceKeepsIdsDistinct(a: seq<Question>, b: seq<Question>)
    requires IsSubsequence(a, b) && DistinctQuestionIds(b)
    ensures DistinctQuestionIds(a)
    decreases |b|
  {
    if |a| > 0 {
      if a[0] == b[0] && IsSubsequence(a[1..], b[1..]) {
        SubsequenceKeepsIdsDistinct(a[1..], b[1..]);
        forall j | 0 < j < |a|
          ensures a[0].id != a[j].id
        {
          assert a[j] == a[1..][j - 1];
          SubsequenceMembers(a[1..], b[1..]);
          assert a[j] in a[1..];
          var k :| 0 <= k < |b[1..]| && b[1..][k] == a[j];
          assert b[k + 1] == a[j];
        }
      } else {
        SubsequenceKeepsIdsDistinct(a, b[1..]);
      }
    }
  }

  /** Every element of a subsequence of `b[1..]` is found in `b` at a positive index. */
  lemma {:induction false} SubsequenceMembers(a: seq<Question>, b: seq<Question>)
    requires IsSubsequence(a, b)
    ensures forall x :: x in a ==> x in b
    decreases |b|
  {
    if |a| > 0 {
      if a[0] == b[0] && IsSubsequence(a[1..], b[1..]) {
        SubsequenceMembers(a[1..], b[1..]);
        assert forall x :: x in a[1..] ==> x in b[1..];
        assert forall x :: x in a ==> x == a[0] || x in a[1..];
      } else {
        SubsequenceMembers(a, b[1..]);
      }
    }
  }
}

=== FILE: seqs.dfy ===
/** `Array.prototype.filter` and the order facts the list transforms rely on. */
module Seqs {

  import opened Optional

  /** `a` can be obtained from `b` by deleting elements: same elements, same relative order. */
  predicate IsSubsequence<T(==)>(a: seq<T>, b: seq<T>)
    decreases |b|
  {
    |a| == 0 || (|b| > 0 && ((a[0] == b[0] && IsSubsequence(a[1..], b[1..])) || IsSubsequence(a, b[1..])))
  }

  /** `xs.filter(keep)`: the elements satisfying `keep`, in their original order. */
  function Filter<T(==)>(xs: seq<T>, keep: T -> bool): (r: seq<T>)
    ensures |r| <= |xs|
    ensures forall i :: 0 <= i < |r| ==> keep(r[i])
    ensures forall i :: 0 <= i < |xs| && keep(xs[i]) ==> xs[i] in r
    ensures forall x :: x in r ==> x in xs
    ensures IsSubsequence(r, xs)
    ensures (forall i :: 0 <= i < |xs| ==> keep(xs[i])) ==> r == xs
    ensures forall x {:trigger multiset(r)[x]} :: x in xs ==> multiset(r)[x] == if keep(x) then multiset(xs)[x] else 0
  {
    if |xs| == 0 then []
    else
      var rest := Filter(xs[1..], keep);
      var r := if keep(xs[0]) then [xs[0]] + rest else rest;
      FilterStep(xs, keep, rest, r);
      FilterOrderStep(xs, keep, rest, r);
      KeptCounts(xs, keep, rest, r);
      r
  }

  /** One step of `Filter`'s membership facts: if `rest` holds exactly the kept elements of the
      tail, then `r`, which adds the head exactly when it is kept, holds those of the whole list. */
  lemma FilterStep<T>(xs: seq<T>, keep: T -> bool, rest: seq<T>, r: seq<T>)
    requires |xs| > 0
    requires forall i :: 0 <= i < |rest| ==> keep(rest[i])
    requires forall i :: 0 <= i < |xs[1..]| && keep(xs[1..][i]) ==> xs[1..][i] in rest
    requires forall x :: x in rest ==> x in xs[1..]
    requires r == if keep(xs[0]) then [xs[0]] + rest else rest
    ensures forall i :: 0 <= i < |r| ==> keep(r[i])
    ensures forall i :: 0 <= i < |xs| && keep(xs[i]) ==> xs[i] in r
    ensures forall x :: x in r ==> x in xs
  {
    assert forall i :: 1 <= i < |xs| ==> xs[i] == xs[1..][i - 1];
  }

  /** One step of `Filter`'s order facts: `r` keeps the relative order of the list, and is the
      list itself when every element is kept. */
  lemma FilterOrderStep<T>(xs: seq<T>, keep: T -> bool, rest: seq<T>, r: seq<T>)
    requires |xs| > 0
    requires |rest| <= |xs[1..]|
    requires IsSubsequence(rest, xs[1..])
    requires (forall i :: 0 <= i < |xs[1..]| ==> keep(xs[1..][i])) ==> rest == xs[1..]
    requires r == if keep(xs[0]) then [xs[0]] + rest else rest
    ensures |r| <= |xs|
    ensures IsSubsequence(r, xs)
    ensures (forall i :: 0 <= i < |xs| ==> keep(xs[i])) ==> r == xs
  {
    if keep(xs[0]) {
      assert r[1..] == rest;
      if forall i :: 0 <= i < |xs| ==> keep(xs[i]) {
        assert forall i :: 0 <= i < |xs[1..]| ==> keep(xs[1..][i]) by {
          assert forall i :: 0 <= i < |xs[1..]| ==> xs[1..][i] == xs[i + 1];
        }
        assert xs == [xs[0]] + xs[1..];
      }
    }
  }

  /** One step of `Filter`'s multiplicity fact: if `rest` keeps each element of the tail as often
      as it occurs there, then `r`, which adds the head exactly when it is kept, does the same for
      the whole list. */
  lemma KeptCounts<T>(xs: seq<T>, keep: T -> bool, rest: seq<T>, r: seq<T>)
    requires |xs| > 0
    requires forall x :: x in rest ==> x in xs[1..]
    requires forall x {:trigger multiset(rest)[x]} :: x in xs[1..] ==> multiset(rest)[x] == if keep(x) then multiset(xs[1..])[x] else 0
    requires r == if keep(xs[0]) then [xs[0]] + rest else rest
    ensures forall x {:trigger multiset(r)[x]} :: x in xs ==> multiset(r)[x] == if keep(x) then multiset(xs)[x] else 0
  {
    assert xs == [xs[0]] + xs[1..];
    assert multiset(xs) == multiset{xs[0]} + multiset(xs[1..]);
    forall x | x in xs
      ensures multiset(r)[x] == if keep(x) then multiset(xs)[x] else 0
    {
      if x !in xs[1..] {
        assert multiset(xs[1..])[x] == 0;
        assert multiset(rest)[x] == 0;
      }
    }
  }

  /** The positions of `xs` that hold an element satisfying `keep`. */
  function Positions<T>(xs: seq<T>, keep: T -> bool): (ps: set<int>)
    ensures forall i :: i in ps <==> 0 <= i < |xs| && keep(xs[i])
  {
    set i | 0 <= i < |xs| && keep(xs[i])
  }

  /** The number of elements satisfying `keep`: `xs.filter(keep).length`. */
  function Count<T(==)>(xs: seq<T>, keep: T -> bool): nat {
    |Filter(xs, keep)|
  }

  /** The count is the number of positions holding a kept element. */
  lemma CountPositions<T>(xs: seq<T>, keep: T -> bool)
    ensures Count(xs, keep) == |Positions(xs, keep)|
  {
    CountPrefix(xs, keep, |xs|);
    assert xs[..|xs|] == xs;
  }

  /** Counting a non-empty list: its head, then its tail. */
  lemma CountCons<T>(xs: seq<T>, keep: T -> bool)
    requires |xs| > 0
    ensures Count(xs, keep) == (if keep(xs[0]) then 1 else 0) + Count(xs[1..], keep)
  {
  }

  /** The kept elements of the first `n` are as many as the positions below `n` that hold one. */
  lemma {:induction false} CountPrefix<T>(xs: seq<T>, keep: T -> bool, n: nat)
    requires n <= |xs|
    ensures |Filter(xs[..n], keep)| == |set i | 0 <= i < n && keep(xs[i])|
  {
    if n > 0 {
      CountPrefix(xs, keep, n - 1);
      assert xs[..n] == xs[..n - 1] + [xs[n - 1]];
      FilterAppend(xs[..n - 1], [xs[n - 1]], keep);
      IndexSetStep(xs, keep, n);
    }
  }

  /** The positions below `n` that hold a kept element are those below `n - 1`, plus `n - 1`
      itself when its element is kept. */
  lemma IndexSetStep<T>(xs: seq<T>, keep: T -> bool, n: nat)
    requires 0 < n <= |xs|
    ensures |set i | 0 <= i < n && keep(xs[i])|
            == |set i | 0 <= i < n - 1 && keep(xs[i])| + |Filter([xs[n - 1]], keep)|
  {
    var below := set i | 0 <= i < n - 1 && keep(xs[i]);
    var upto := set i | 0 <= i < n && keep(xs[i]);
    if keep(xs[n - 1]) {
      assert upto == below + {n - 1};
    } else {
      assert upto == below;
    }
  }

  /** A predicate and its negation split a list: their counts add up to its length. */
  lemma {:induction false} FilterPartition<T>(xs: seq<T>, keep: T -> bool)
    ensures Count(xs, keep) + Count(xs, x => !keep(x)) == |xs|
  {
    if |xs| > 0 {
      FilterPartition(xs[1..], keep);
    }
  }

  /** Filtering a concatenation filters each part. */
  lemma {:induction false} FilterAppend<T>(xs: seq<T>, ys: seq<T>, keep: T -> bool)
    ensures Filter(xs + ys, keep) == Filter(xs, keep) + Filter(ys, keep)
  {
    if |xs| == 0 {
      assert xs + ys == ys;
    } else {
      assert (xs + ys)[1..] == xs[1..] + ys;
      FilterAppend(xs[1..], ys, keep);
    }
  }

  /** `xs.find(matches)` / Mongoose `findOne`: the first element that matches, if any. */
  function Find<T(==)>(xs: seq<T>, matches: T -> bool): (r: Option<T>)
    ensures r.None? <==> forall i :: 0 <= i < |xs| ==> !matches(xs[i])
    ensures r.Some? ==> exists i :: 0 <= i < |xs| && xs[i] == r.value && matches(r.value)
                                   && forall j :: 0 <= j < i ==> !matches(xs[j])
  {
    if |xs| == 0 then None
    else if matches(xs[0]) then Some(xs[0])
    else
      var r := Find(xs[1..], matches);
      assert forall i :: 1 <= i < |xs| ==> xs[i] == xs[1..][i - 1];
      if r.Some? then
        assert exists i :: 0 <= i < |xs| && xs[i] == r.value && matches(r.value)
                           && forall j :: 0 <= j < i ==> !matches(xs[j]) by {
          var i :| 0 <= i < |xs[1..]| && xs[1..][i] == r.value && matches(r.value)
                   && forall j :: 0 <= j < i ==> !matches(xs[1..][j]);
          assert xs[i + 1] == r.value;
        }
        r
      else r
  }

  /** `xs.indexOf(x)`: the position of the first occurrence, if any. */
  function IndexOf<T(==)>(xs: seq<T>, x: T): (r: Option<nat>)
    ensures r.None? <==> x !in xs
    ensures r.Some? ==> r.value < |xs| && xs[r.value] == x && x !in xs[..r.value]
  {
    if |xs| == 0 then None
    else if xs[0] == x then
      assert xs[..0] == [];
      Some(0)
    else
      match IndexOf(xs[1..], x)
      case None => None
      case Some(i) =>
        assert xs[..i + 1] == [xs[0]] + xs[1..][..i];
        Some(i + 1)
  }

  /** No element occurs twice. */
  predicate NoDuplicates<T(==)>(xs: seq<T>) {
    forall i, j :: 0 <= i < j < |xs| ==> xs[i] != xs[j]
  }
}

=== FILE: text.dfy ===
/** The JavaScript string primitives the application relies on: `trim`, `toLowerCase`,
    `includes`, `startsWith` and `split('/')`. */
module Text {

  /** The characters `String.prototype.trim` strips: the WhiteSpace and LineTerminator
      code points of ECMA-262 (sections 12.2 and 12.3 of the 2015 edition). */
  predicate IsSpace(c: char) {
    || c == '\t' || c == '\n' || c == '\U{000B}' || c == '\U{000C}' || c == '\r' || c == ' '
    || c == '\U{00A0}' || c == '\U{1680}' || ('\U{2000}' <= c <= '\U{200A}')
    || c == '\U{2028}' || c == '\U{2029}' || c == '\U{202F}' || c == '\U{205F}'
    || c == '\U{3000}' || c == '\U{FEFF}'
  }

  predicate AllSpace(s: string) {
    forall i :: 0 <= i < |s| ==> IsSpace(s[i])
  }

  /** Drops leading white space: the result is the longest suffix that starts with a non-space. */
  function TrimStart(s: string): (r: string)
    ensures |r| <= |s| && r == s[|s| - |r|..]
    ensures AllSpace(s[..|s| - |r|])
    ensures r == [] || !IsSpace(r[0])
  {
    if |s| > 0 && IsSpace(s[0]) then
      var r := TrimStart(s[1..]);
      SplitHead(s, |s| - 1 - |r|);
      r
    else s
  }

  /** Drops trailing white space: the result is the longest prefix that ends with a non-space. */
  function TrimEnd(s: string): (r: string)
    ensures |r| <= |s| && r == s[..|r|]
    ensures AllSpace(s[|r|..])
    ensures r == [] || !IsSpace(r[|r| - 1])
  {
    if |s| > 0 && IsSpace(s[|s| - 1]) then
      var r := TrimEnd(s[..|s| - 1]);
      SplitLast(s, |r|);
      r
    else s
  }

  /** Removing the first character shifts every cut of the rest by one. */
  lemma SplitHead(s: string, n: nat)
    requires 0 < |s| && n <= |s| - 1
    ensures s[1..][n..] == s[n + 1..]
    ensures s[..n + 1] == [s[0]] + s[1..][..n]
    ensures AllSpace(s[..n + 1]) <==> IsSpace(s[0]) && AllSpace(s[1..][..n])
  {
    var a := [s[0]] + s[1..][..n];
    assert s[..n + 1] == a;
    assert AllSpace(a) <==> IsSpace(a[0]) && AllSpace(a[1..]) by {
      assert forall i :: 1 <= i < |a| ==> a[i] == a[1..][i - 1];
    }
    assert a[1..] == s[1..][..n];
  }

  /** Removing the last character leaves every cut before it in place. */
  lemma SplitLast(s: string, n: nat)
    requires 0 < |s| && n <= |s| - 1
    ensures s[..|s| - 1][..n] == s[..n]
    ensures s[n..] == s[..|s| - 1][n..] + [s[|s| - 1]]
    ensures AllSpace(s[n..]) <==> AllSpace(s[..|s| - 1][n..]) && IsSpace(s[|s| - 1])
  {
    var a := s[..|s| - 1][n..];
    assert s[n..] == a + [s[|s| - 1]];
    assert forall i :: 0 <= i < |a| ==> (a + [s[|s| - 1]])[i] == a[i];
  }

  /** `s.trim()`. */
  function Trim(s: string): (r: string)
    ensures |r| <= |s|
    ensures r == [] || (!IsSpace(r[0]) && !IsSpace(r[|r| - 1]))
    ensures r == [] <==> AllSpace(s)
  {
    var t := TrimStart(s);
    var r := TrimEnd(t);
    assert r == [] ==> AllSpace(s) by {
      if r == [] {
        assert s == s[..|s| - |t|] + t;
        assert t == t[|r|..];
      }
    }
    r
  }

  /** `!s.trim()`: the string is empty or white space only. */
  function IsBlank(s: string): (b: bool)
    ensures b <==> AllSpace(s)
  {
    Trim(s) == []
  }

  /** Trimming cuts white space off both ends and keeps the middle verbatim. */
  lemma TrimKeepsMiddle(s: string)
    ensures var k := |s| - |TrimStart(s)|;
            && k + |Trim(s)| <= |s|
            && s == s[..k] + Trim(s) + s[k + |Trim(s)|..]
            && AllSpace(s[..k]) && AllSpace(s[k + |Trim(s)|..])
  {
    var t := TrimStart(s);
    var k := |s| - |t|;
    var r := TrimEnd(t);
    assert Trim(s) == r;
    ThreeParts(s, k, |r|);
  }

  /** Cutting a string at `k` and then `m` further on gives three pieces that make it up. */
  lemma ThreeParts(s: string, k: nat, m: nat)
    requires k + m <= |s|
    ensures s == s[..k] + s[k..][..m] + s[k + m..]
    ensures s[k..][m..] == s[k + m..]
  {
    assert s == s[..k] + s[k..];
    assert s[k..] == s[k..][..m] + s[k..][m..];
  }

  /** Trimming twice is trimming once. */
  lemma TrimIdempotent(s: string)
    ensures Trim(Trim(s)) == Trim(s)
  {
    var r := Trim(s);
    if r != [] {
      assert TrimStart(r) == r;
      assert TrimEnd(r) == r;
    }
  }

  function LowerChar(c: char): char {
    if 'A' <= c <= 'Z' then (c as int + 32) as char else c
  }

  /** `s.toLowerCase()` on the Basic Latin letters. */
  function Lower(s: string): (r: string)
    ensures |r| == |s|
    ensures forall i :: 0 <= i < |r| ==> !('A' <= r[i] <= 'Z')
    ensures forall i :: 0 <= i < |s| && 'A' <= s[i] <= 'Z' ==> r[i] as int == s[i] as int + 32
    ensures forall i :: 0 <= i < |s| && !('A' <= s[i] <= 'Z') ==> r[i] == s[i]
  {
    seq(|s|, i requires 0 <= i < |s| => LowerChar(s[i]))
  }

  /** Lower-casing a lower-cased string changes nothing. */
  lemma LowerIdempotent(s: string)
    ensures Lower(Lower(s)) == Lower(s)
  {
  }

  /** Two strings that differ only in the case of their Basic Latin letters lower-case to the
      same string. */
  lemma LowerIgnoresCase(a: string, b: string)
    requires |a| == |b|
    requires forall i :: 0 <= i < |a| ==> LowerChar(a[i]) == LowerChar(b[i])
    ensures Lower(a) == Lower(b)
  {
    assert forall i :: 0 <= i < |a| ==> Lower(a)[i] == Lower(b)[i];
  }

  predicate IsPrefix(p: string, s: string) {
    |p| <= |s| && s[..|p|] == p
  }

  /** `s.startsWith(p)`. */
  predicate StartsWith(s: string, p: string) {
    IsPrefix(p, s)
  }

  /** `sub` occurs in `s` starting at index `i`. */
  predicate OccursAt(s: string, sub: string, i: int) {
    0 <= i && i + |sub| <= |s| && s[i..i + |sub|] == sub
  }

  /** `s.includes(sub)`: `sub` occurs somewhere in `s`. */
  function Contains(s: string, sub: string): (r: bool)
    ensures r <==> exists i :: OccursAt(s, sub, i)
    decreases |s|
  {
    if IsPrefix(sub, s) then
      assert OccursAt(s, sub, 0);
      true
    else if |s| == 0 then
      false
    else
      var r := Contains(s[1..], sub);
      if r then
        var j :| OccursAt(s[1..], sub, j);
        assert OccursAt(s, sub, j + 1);
        true
      else
        assert forall i :: OccursAt(s, sub, i) ==> OccursAt(s[1..], sub, i - 1);
        false
  }

  /** `s.split(sep)` for a one-character separator: the pieces between separators, in order. */
  function Split(s: string, sep: char): (parts: seq<string>)
    ensures |parts| >= 1
    ensures forall i :: 0 <= i < |parts| ==> sep !in parts[i]
    ensures Join(parts, sep) == s
    decreases |s|
  {
    if |s| == 0 then [""]
    else
      var rest := Split(s[1..], sep);
      if s[0] == sep then
        assert Join([""] + rest, sep) == [] + [sep] + Join(rest, sep);
        [""] + rest
      else
        var parts := [[s[0]] + rest[0]] + rest[1..];
        assert parts[1..] == rest[1..];
        assert Join(parts, sep) == s by {
          if |rest| == 1 {
            assert Join(parts, sep) == [s[0]] + rest[0];
          } else {
            assert Join(rest, sep) == rest[0] + [sep] + Join(rest[1..], sep);
          }
        }
        parts
  }

  /** `parts.join(sep)`. */
  function Join(parts: seq<string>, sep: char): string
    decreases |parts|
  {
    if |parts| == 0 then ""
    else if |parts| == 1 then parts[0]
    else parts[0] + [sep] + Join(parts[1..], sep)
  }

  /** Splitting a join of separator-free pieces gives the pieces back. */
  lemma {:induction false} SplitJoin(parts: seq<string>, sep: char)
    requires |parts| >= 1
    requires forall i :: 0 <= i < |parts| ==> sep !in parts[i]
    ensures Split(Join(parts, sep), sep) == parts
    decreases |parts|, |parts[0]|
  {
    var p := parts[0];
    if |p| == 0 {
      if |parts| > 1 {
        var tail := Join(parts[1..], sep);
        assert Join(parts, sep) == [sep] + tail;
        assert (Join(parts, sep))[1..] == tail;
        SplitJoin(parts[1..], sep);
      }
    } else {
      var parts' := [p[1..]] + parts[1..];
      DropFirstChar(parts, sep);
      SplitJoin(parts', sep);
      var s := Join(parts, sep);
      assert p[0] != sep by { assert p[0] in parts[0]; }
      var rest := Split(s[1..], sep);
      assert rest == parts';
      assert Split(s, sep) == [[p[0]] + rest[0]] + rest[1..];
      assert [p[0]] + p[1..] == p;
    }
  }

  /** Dropping the first character of a join whose first piece is non-empty: the join of the
      pieces with that character dropped from the first, which are separator-free as well. */
  lemma DropFirstChar(parts: seq<string>, sep: char)
    requires |parts| >= 1 && |parts[0]| > 0
    requires forall i :: 0 <= i < |parts| ==> sep !in parts[i]
    ensures var parts' := [parts[0][1..]] + parts[1..];
            && (forall i :: 0 <= i < |parts'| ==> sep !in parts'[i])
            && Join(parts, sep)[0] == parts[0][0]
            && Join(parts, sep)[1..] == Join(parts', sep)
  {
    var p := parts[0];
    var parts' := [p[1..]] + parts[1..];
    assert parts'[1..] == parts[1..];
    forall i | 0 <= i < |parts'|
      ensures sep !in parts'[i]
    {
      if i == 0 {
        assert forall c :: c in p[1..] ==> c in p;
      } else {
        assert parts'[i] == parts[i];
      }
    }
    var s := Join(parts, sep);
    if |parts| == 1 {
      assert s == p;
    } else {
      assert s == p + [sep] + Join(parts[1..], sep);
      assert s[1..] == p[1..] + [sep] + Join(parts[1..], sep);
    }
  }
}

=== FILE: utf16.dfy ===
/** The JavaScript `length` of a string, which counts UTF-16 code units. */
module Utf16 {

  import opened Seqs

  /** A character beyond the Basic Multilingual Plane. */
  predicate IsAstral(c: char) {
    c as int > 0xFFFF
  }

  /** The JavaScript `length` of a string: its count of UTF-16 code units, where a
      character beyond the Basic Multilingual Plane takes a surrogate pair. */
  function Length(s: string): (n: nat)
    ensures |s| <= n <= 2 * |s|
    ensures n == |s| + |set i | 0 <= i < |s| && IsAstral(s[i])|
    ensures n == |s| <==> forall i :: 0 <= i < |s| ==> !IsAstral(s[i])
  {
    if |s| == 0 then 0
    else
      var n := Length(s[1..]);
      assert forall i :: 1 <= i < |s| ==> s[i] == s[1..][i - 1];
      AstralCount(s[1..]);
      AstralCount(s);
      CountCons(s, IsAstral);
      (if IsAstral(s[0]) then 2 else 1) + n
  }

  /** `Count` with `IsAstral` counts the positions of astral characters. */
  lemma AstralCount(s: string)
    ensures Count(s, IsAstral) == |set i | 0 <= i < |s| && IsAstral(s[i])|
  {
    CountPositions(s, IsAstral);
    assert (set i | 0 <= i < |s| && IsAstral(s[i])) == Positions(s, IsAstral);
  }

  /** The length of a concatenation is the sum of the lengths, whatever the characters. */
  lemma {:induction false} LengthAppend(a: string, b: string)
    ensures Length(a + b) == Length(a) + Length(b)
  {
    if |a| > 0 {
      assert (a + b)[1..] == a[1..] + b;
      LengthAppend(a[1..], b);
    } else {
      assert a + b == b;
    }
  }
}
